=== FILE: README.md ===
# SmartCart in Dafny

SmartCart is a small shop. An ASP.NET Core backend keeps users and products in an
Entity Framework store. An Angular client logs in, keeps its session in local
storage, and lists and searches the catalogue. This project models the logic
behind the ORM and HTTP layers as pure functions over immutable values, and it
proves what the code promises.

The model is built in layers:

- **Entities** (`Models`). `User` and `Product` with their defaults. The two-member `UserRole` enumeration and its integer storage. The column limits.
- **Repositories** (`ProductRepository`, `UserRepository`). Each table is a sequence in insertion order, keyed by `Id`.
  - Product reads see only active products. Listings are ordered by name with a stable sort (`NameOrder`).
  - Search is a case-insensitive substring match on name or description. A blank term lists everything.
  - Delete only clears `IsActive`.
  - User lookup by e-mail ignores letter case.
  - A zero id on create is replaced by a generated key, one past the largest stored key.
- **Services** (`ProductService`, `UserService`). Request and response shapes, and the operations over the repositories.
  - Login gives the same `null` for an unknown e-mail and for a wrong password.
  - Register refuses a case-insensitive duplicate with `InvalidOperationException`, and always creates a `Customer`.
  - Update overwrites exactly four fields.
  - Hashing, verification and token generation are library calls. They are parameters (`UserService.Crypto`).
- **Controllers** (`UserController`, `ProductController`, `Authorization`, `Http`).
  - Each action has a gate: anonymous, any authenticated caller, or the `Admin` role.
  - Each action maps its outcome to a status: `null` is 401 or 404, `false` is 404, registration's `InvalidOperationException` is 409, and any other exception is 400.
- **The backend as a whole** (`Backend`, `Seed`, `Scenarios`).
  - One request is handled by its gate and then its action.
  - The seeded initial state is one administrator and twelve products.
  - An end-to-end run goes from that state.
- **The client.**
  - `AuthSession`: the authentication service, with local storage as a string map.
  - `UserInfoJson`: the JSON summary the session stores.
  - `ProductListView`: the product list page, both copies, with loading, server search and its local fallback, and the broken-image fallback.
- **Shared utilities** (`Wrappers`, `Seqs`, `Text`).
  - Option and result types.
  - Order-preserving filter and subsequences.
  - Unique keys and key generation.
  - ASCII case folding, substring search, .NET and JavaScript white space, ordinal string order, and decimal rendering.

## Model

| member | source | states |
|---|---|---|
| Models.RoleFromValue | backend/Models/User.cs:3-7 | Only 0 and 1 name a role, and reading a stored value gives back the role with that value. |
| Models.RoleStorageRoundTrip | backend/Data/SmartCartContext.cs:24 | A role stored as its integer reads back as the same role. |
| Models.RoleNameInjective | backend/Models/User.cs:3-7 | Distinct roles have distinct names, so the role claim identifies the role. |
| Models.NewUser | backend/Models/User.cs:9-16 | A new user has id 0, empty e-mail and hash, role `Customer`, and the clock's time. |
| Models.NewProduct | backend/Models/Product.cs:3-12 | A new product has empty name, description and image URL, zero price, and is active. |
| ProductRepository.GetById | backend/BusinessService/Product/ProductRepository.cs:16-20 | A product is found iff some stored product has the id and is active; the result is such a product. |
| ProductRepository.Find | backend/BusinessService/Product/ProductRepository.cs:61 | `FindAsync` finds a product iff some stored product has the key, active or not. With distinct keys it finds an active product exactly when `GetById` finds one. |
| ProductRepository.GetAll | backend/BusinessService/Product/ProductRepository.cs:22-28 | The result is sorted by name and is a permutation of the active products; nothing else appears. |
| ProductRepository.Search | backend/BusinessService/Product/ProductRepository.cs:30-43 | A blank term gives the listing. Otherwise the result is sorted and is a permutation of the matching active products: an active product is in it iff its lowered name or description contains the lowered term. |
| ProductRepository.SearchCount | backend/BusinessService/Product/ProductRepository.cs:37-42 | A non-blank search has exactly as many entries as there are matching active products. |
| ProductRepository.SearchFiltersListing | backend/BusinessService/Product/ProductRepository.cs:37-42 | A non-blank search equals the listing with non-matching products removed, so it is a subsequence of the listing. |
| ProductRepository.Create | backend/BusinessService/Product/ProductRepository.cs:45-50 | Appends the product unchanged except for a generated key when its id is 0. An existing key fails. Keys stay distinct. |
| ProductRepository.Update | backend/BusinessService/Product/ProductRepository.cs:52-57 | Writes over the row with the same key, and every other row stays. With no such row the write fails. |
| ProductRepository.Delete | backend/BusinessService/Product/ProductRepository.cs:59-68 | Answers true iff the key is stored, even for a product already deleted. Only that product's flag changes. An absent key changes nothing. The product is invisible afterwards. |
| ProductRepository.DeleteIdempotent | backend/BusinessService/Product/ProductRepository.cs:59-68 | Deleting twice gives the same store and answer as deleting once. |
| ProductService.ToResponse | backend/BusinessService/Product/ProductService.cs:71-82 | The response carries the product's id, name, price, description, image URL and creation time. |
| ProductService.ResponseHidesOnlyActiveFlag | backend/BusinessService/Product/ProductService.cs:71-82 | Two products map to the same response iff they differ at most in the active flag. |
| ProductService.GetProductById | backend/BusinessService/Product/ProductService.cs:16-22 | A response comes back iff an active product has the id, and it is that product's response. |
| ProductService.GetAllProducts | backend/BusinessService/Product/ProductService.cs:24-28 | The responses are ordered by name, show only active products, include every active product, and are as many as the active products. |
| ProductService.SearchProducts | backend/BusinessService/Product/ProductService.cs:30-34 | A blank term answers as the listing. Otherwise the responses are ordered, are exactly the matching active products, and are as many as those products. |
| ProductService.CreateProduct | backend/BusinessService/Product/ProductService.cs:36-50 | Never throws. Appends one active product with a fresh key, the request's four fields and the clock's time, and answers with its response. |
| ProductService.UpdateProduct | backend/BusinessService/Product/ProductService.cs:52-64 | Answers null and writes nothing iff no active product has the id. Otherwise only that product's name, price, description and image URL change. |
| ProductService.DeleteProduct | backend/BusinessService/Product/ProductService.cs:66-69 | Answers exactly whether the key is stored, with the repository's soft delete as the store. |
| ProductService.UpdateThenGet | backend/BusinessService/Product/ProductService.cs:52-64 | With distinct keys, after a successful update, reading the id gives the response the update answered. |
| ProductService.DeletedProductAsymmetry | backend/BusinessService/Product/ProductService.cs:54-55 | After a delete, reading or updating the id answers null, while deleting it again still answers true. |
| UserRepository.GetByEmail | backend/BusinessService/User/UserRepository.cs:16-20 | Null iff no stored e-mail equals the query up to letter case. Otherwise the result is the first such user. |
| UserRepository.GetByEmailIgnoresCase | backend/BusinessService/User/UserRepository.cs:19 | Queries that differ only in letter case find the same user. |
| Seqs.FindKey | backend/BusinessService/User/UserRepository.cs:22-26 | Lookup by key, as `GetByIdAsync` on users does and as `FindAsync` on products does at backend/BusinessService/Product/ProductRepository.cs:61: found iff some stored element has the key; the result is the first stored element with that key. |
| UserRepository.GetById | backend/BusinessService/User/UserRepository.cs:22-26 | A user is found iff some stored user has the id. With distinct keys it is the only stored user with that id. |
| UserRepository.Create | backend/BusinessService/User/UserRepository.cs:28-33 | Appends the user unchanged except for a generated key when its id is 0, and keeps keys distinct. |
| UserRepository.GetAll | backend/BusinessService/User/UserRepository.cs:35-38 | Every stored user, in store order, none filtered. |
| UserService.Login | backend/BusinessService/User/UserService.cs:19-36 | Succeeds iff the first case-insensitive e-mail match verifies the password, answering with the stored e-mail, role name and token. An unknown e-mail gives null. |
| UserService.Register | backend/BusinessService/User/UserService.cs:38-64 | Throws `InvalidOperationException` and writes nothing iff the e-mail is taken up to case. Otherwise it appends exactly one `Customer` with the password's hash and answers `"Customer"`. Keys and e-mails stay distinct. |
| UserService.ToUserResponse | backend/BusinessService/User/UserService.cs:71-77 | The response carries the user's id, e-mail and creation time, and the role's name. |
| UserService.UserResponseHidesOnlyHash | backend/BusinessService/User/UserService.cs:66-78 | Two users give the same read response iff they differ at most in the password hash. |
| UserService.GetUserById | backend/BusinessService/User/UserService.cs:66-78 | A response comes back iff the id is stored, and it is that user's response. |
| UserService.GetAllUsers | backend/BusinessService/User/UserService.cs:80-90 | One response per stored user, in order, with id, e-mail, role name and creation time. |
| UserService.ListingAgreesWithRead | backend/BusinessService/User/UserService.cs:66-90 | An id is readable iff it appears in the listing, and with distinct keys the read response is one of the listed ones. |
| UserService.RegisterThenDuplicate | backend/BusinessService/User/UserService.cs:41-45 | After a registration, registering any case variant of the e-mail throws and changes nothing. |
| UserService.RegisterThenLogin | backend/BusinessService/User/UserService.cs:48-63 | After a registration, logging in with the password and any case variant of the e-mail answers the registration's response. |
| Authorization.Authorize | backend/Controllers/UserController.cs:56 | A gate allows iff it is open, or the caller is authenticated with the role the gate names. Without an identity a closed gate challenges. |
| Http.Refusal | backend/Controllers/UserController.cs:75 | A challenge answers 401 and a forbid 403, both with no body. |
| UserController.Gate | backend/Controllers/UserController.cs:19-75 | Login and register are open, reading a user needs an identity, and listing users needs `Admin`. |
| UserController.LoginAnswer | backend/Controllers/UserController.cs:19-35 | Null is 401 with "Invalid email or password", a result is 200, and an exception is 400. |
| UserController.RegisterAnswer | backend/Controllers/UserController.cs:37-53 | A result is 200, `InvalidOperationException` is 409 with its message, and any other exception is 400. |
| UserController.GetUserAnswer | backend/Controllers/UserController.cs:55-72 | Null is 404 with the framework's problem-details body naming 404, a result is 200, and an exception is 400. |
| UserController.GetAllUsersAnswer | backend/Controllers/UserController.cs:74-87 | The list is 200 and an exception is 400. |
| ProductController.Gate | backend/Controllers/ProductController.cs:19-116 | Reads are open and writes need `Admin`. |
| ProductController.SearchQuery | backend/Controllers/ProductController.cs:52 | A missing query parameter is the empty string. |
| ProductController.ListAnswer | backend/Controllers/ProductController.cs:19-31 | The list is 200 and an exception is 400. |
| ProductController.OneAnswer | backend/Controllers/ProductController.cs:33-49 | Null is 404 with the framework's problem-details body naming 404, a result is 200, and an exception is 400. |
| ProductController.CreateAnswer | backend/Controllers/ProductController.cs:65-78 | The created product is 201 and an exception is 400. |
| ProductController.DeleteAnswer | backend/Controllers/ProductController.cs:99-116 | True is 204 and the only answer with no body. False is 404 with the framework's problem-details body, and an exception is 400. |
| Backend.Run | backend/Controllers/ProductController.cs:19-116 | Only register writes users, only the three product writes write products, and reads change nothing. |
| Backend.Handle | backend/Controllers/UserController.cs:55-87 | A refused request answers 401 or 403 and changes nothing. Read requests never change the state. |
| Backend.HandlePreservesValid | backend/Data/SmartCartContext.cs:18-35 | Every request keeps ids unique in both tables and e-mails unique up to case. |
| Backend.NoBadRequests | backend/Controllers/ProductController.cs:27-30 | No well-formed request answers 400: once the route and body are bound, no service call throws anything but registration's `InvalidOperationException`. |
| Backend.MissingQueryListsAll | backend/Controllers/ProductController.cs:51-63 | A search without `q` answers exactly as the listing. |
| Backend.LoginFailuresLookAlike | backend/Controllers/UserController.cs:25-28 | Every failed login answers the same 401 with the same message. |
| Backend.DeletedProductAnswers | backend/Controllers/ProductController.cs:80-116 | Deleting a product answers 204, and deleting it again still answers 204, while reading or updating it answers 404. |
| Seed.InitialState | backend/Data/SmartCartContext.cs:41-71 | The seed has one user, the administrator, and twelve active products with ids 1 to 12. |
| Seed.SeedValid | backend/Data/SmartCartContext.cs:18-71 | The seed satisfies the key and e-mail constraints and the column limits, and its only administrator has id 1. |
| Seed.SeedListing | backend/Data/SmartCartContext.cs:54-70 | All twelve seed products are listed. |
| Seed.SeedNextKey | backend/Data/SmartCartContext.cs:54-70 | The first product created after seeding gets key 13. |
| Seed.AdminLoginOnSeed | backend/Data/SmartCartContext.cs:44-52 | The administrator logs in with `admin123` under any letter case of the e-mail, and the answer names role `Admin`. |
| Scenarios.RegisterTwice | backend/Controllers/UserController.cs:37-53 | Next to the seeded administrator and any product table, a new address registers with 200 as a customer, and its upper-case variant is then refused with 409 and the duplicate message, the state unchanged. |
| Scenarios.KeptOut | backend/Controllers/UserController.cs:74-87 | Next to the seeded administrator and any product table, the registered customer logs in with 200, while listing users answers 403 to a customer claim, 401 without a token, and 200 with both users' summaries to the administrator. |
| Scenarios.RegisterOnSeed | backend/Controllers/UserController.cs:37-53 | On the seed a new address registers with 200 as a customer, and its upper-case variant is then refused with 409. |
| Scenarios.CustomerIsKeptOut | backend/Controllers/UserController.cs:74-87 | The new customer logs in, but listing users answers 403 to the customer, 401 without a token, and 200 with both users to the administrator. |
| UserInfoJson.EscapeChar | frontend/src/app/services/auth.service.ts:49-52 | A character is escaped iff it is a quote, a backslash or a control character, and is otherwise written as itself. |
| UserInfoJson.Encode | frontend/src/app/services/auth.service.ts:49-52 | The stored summary is an object text: it starts with the `email` key and ends with the closing brace. |
| UserInfoJson.ReadEscaped | frontend/src/app/services/auth.service.ts:37 | Reading an escaped string and its closing quote gives back the string and what follows. |
| UserInfoJson.DecodeEncode | frontend/src/app/services/auth.service.ts:34-52 | Parsing the stored summary gives back the e-mail and role that login stored. |
| UserInfoJson.Decode | frontend/src/app/services/auth.service.ts:37 | Only a text with the writer's opening and closing shape parses. |
| AuthSession.Construct | frontend/src/app/services/auth.service.ts:32-39 | A user is restored iff both entries are non-empty and the summary parses, with no id. An unparsable summary is an error, and storage is untouched. |
| AuthSession.Login | frontend/src/app/services/auth.service.ts:41-64 | A reply stores the token and summary and publishes the user with id 0. A failure changes nothing. Other storage keys stay. |
| AuthSession.Logout | frontend/src/app/services/auth.service.ts:66-70 | Both entries are removed, the current user is cleared, and other keys stay. |
| AuthSession.IsAuthenticated | frontend/src/app/services/auth.service.ts:72-74 | True iff a token is stored and it is not the empty string. |
| AuthSession.IsLoggedIn | frontend/src/app/services/auth.service.ts:76-78 | True iff a token is stored and it is not the empty string. |
| AuthSession.IsAdmin | frontend/src/app/services/auth.service.ts:80-83 | True iff there is a current user and its role is exactly `Admin`; storage plays no part. |
| AuthSession.GetToken | frontend/src/app/services/auth.service.ts:85-87 | A token is handed out iff one is stored, and it is the stored token. |
| AuthSession.TokenAfterLogin | frontend/src/app/services/auth.service.ts:48 | After a login reply the token handed out is the reply's token. A failed login leaves the token as it was. |
| AuthSession.LoginChecksAgree | frontend/src/app/services/auth.service.ts:72-78 | `isAuthenticated` and `isLoggedIn` agree on every session. |
| AuthSession.LogoutClears | frontend/src/app/services/auth.service.ts:66-87 | After logout no check passes, no token is handed out, and a reload restores nobody. |
| AuthSession.ReloadAfterLogin | frontend/src/app/services/auth.service.ts:34-59 | After a login with a non-empty token, a reload restores the same e-mail and role, and so the same admin decision. |
| AuthSession.AdminWithoutToken | frontend/src/app/services/auth.service.ts:72-83 | A login reply with an empty token leaves `isAdmin` true while `isAuthenticated` is false, and a reload forgets the user. |
| ProductListView.LoadProducts | frontend/src/app/components/product-list/product-list.component.ts:277-292 | A list replaces both lists and clears the error. A failure sets the fixed message and keeps the lists. Loading ends either way. The second copy of the page, frontend/src/app/components/product/product-list/product-list.component.ts:32-48, does the same. |
| ProductListView.FirstLoad | frontend/src/app/components/product-list/product-list.component.ts:262-292 | The page starts with empty lists, no term, no error and loading on. After `ngOnInit`'s load, a list fills both lists with no error, and a failure shows the fixed message over two empty lists. Loading has ended either way. |
| ProductListView.ReloadIdempotent | frontend/src/app/components/product-list/product-list.component.ts:277-292 | Loading twice with the same reply shows what loading once does, and a list that arrives replaces whatever an earlier load left. |
| ProductListView.OnSearch | frontend/src/app/components/product-list/product-list.component.ts:295-312 | A term that trims to nothing shows the loaded list. Otherwise the server's answer is shown, or on failure the local fallback over the untrimmed term. Nothing else changes. The second copy of the page, frontend/src/app/components/product/product-list/product-list.component.ts:49-69, does the same. |
| ProductListView.Fallback | frontend/src/app/components/product-list/product-list.component.ts:303-306 | The fallback is an order-preserving subsequence of the loaded list, and keeps a product iff its lowered name or description contains the lowered term. The second copy of the page, frontend/src/app/components/product/product-list/product-list.component.ts:58-61, does the same. |
| ProductListView.FallbackAgreesWithServer | frontend/src/app/components/product-list/product-list.component.ts:301-307 | On a freshly loaded list and a term the server does not treat as blank, the fallback equals the server's search. |
| ProductListView.BlankTermsDiffer | frontend/src/app/components/product-list/product-list.component.ts:296 | The client's trim and the server's blank test disagree: U+0085 is sent but answered as blank, and U+FEFF is never sent. |
| ProductListView.OnImageError | frontend/src/app/components/product-list/product-list.component.ts:328-337 | A placeholder-host image becomes the embedded SVG. Any other image becomes a placeholder-host URL whose suffix is the drawn number written in decimal digits with no leading zero. The second copy of the page, frontend/src/app/components/product/product-list/product-list.component.ts:86-95, does the same. |
| ProductListView.SecondErrorShowsPlaceholder | frontend/src/app/components/product-list/product-list.component.ts:328-337 | An image not from the placeholder host shows the SVG after at most two failures. |
| NameOrder.OrderByName | backend/BusinessService/Product/ProductRepository.cs:26 | The ordering is sorted by name and is a permutation of its input. |
| NameOrder.OrderByNameFilter | backend/BusinessService/Product/ProductRepository.cs:37-42 | Sorting then filtering equals filtering then sorting, because the sort is stable. |
| Text.ContainsIffOccurs | backend/BusinessService/Product/ProductRepository.cs:39-40 | The substring scan succeeds iff the term occurs at some position. |
| Text.JsTrimEmptyIff | frontend/src/app/components/product-list/product-list.component.ts:296 | A term trims to nothing iff every character is JavaScript white space. |
| Text.LessEqTotal | backend/BusinessService/Product/ProductRepository.cs:26 | The name order relates every two names. |
| Text.LessEqTransitive | backend/BusinessService/Product/ProductRepository.cs:26 | The name order is transitive. |
| Text.DecimalRoundTrip | frontend/src/app/components/product-list/product-list.component.ts:335 | The decimal rendering of a number is digits only with no leading zero, and reads back as the number. |
| Seqs.FilterIsSubsequence | frontend/src/app/components/product-list/product-list.component.ts:303-306 | Filtering keeps order: the result is a subsequence of the input. |
| Seqs.NextKey | backend/Data/SmartCartContext.cs:20 | A generated key is at least 1, exceeds every stored key, and is either one past a stored key or 1. |

## Left out

- I/O, the database provider and `async`: tables are values, and each call is one atomic step. Concurrent registrations racing past the duplicate check are not modelled.
- The provider's unique index on `Email` is not modelled. Uniqueness holds because registration keeps it. It is kept up to letter case, which is stronger than the index's exact match.
- BCrypt hashing and verification, and JWT generation and validation, are library calls. `UserService.Crypto` passes them in as functions. Token validation is the framework's, so a request starts from its result (`Authorization.Caller`).
- UserService.RegisterThenLogin: tokens are modelled as depending only on the stored user (the `generateToken` field of `UserService.Crypto` takes the user alone). A JWT that carries an issue or expiry time would make the login token differ from the registration token.
- The DTO classes and `IJwtService` are not part of this model. Their shapes are read off the services and controllers.
- `backend/Program.cs`, CORS, Swagger, routing, the login and admin components, and `product.service.ts` are wiring or templates. A client call's reply is a parameter.
- `decimal` prices are copied and never computed with, so `real` stands in for them. `decimal(18,2)` rounding is not modelled.
- `DateTime.UtcNow` is a parameter. Seed times are one parameter for all rows.
- `int` ids are unbounded. Key generation past 2^31 - 1 is not modelled.
- Text.Lower: folds the ASCII letters `A`-`Z` only. The invariant culture of `ToLower()` and the full Unicode mapping of `toLowerCase()` also fold non-ASCII letters, such as `É` to `é`. So `ProductRepository.Search`, `UserRepository.GetByEmail`, `UserService.Login`, `UserService.Register`, `ProductListView.Fallback` and `ProductListView.OnSearch` treat non-ASCII letters that differ only in case as different. In the model, a search for `CAFÉ` does not find `café`, and `ÉMILE@x.com` registers beside `émile@x.com`, where the program finds the product and answers 409. Under a culture such as tr-TR, where `I` lowers to `ı`, even ASCII folding differs, so the properties below that rest on case folding need not hold there.
- ProductListView.FallbackAgreesWithServer: holds because the model lowers the server's term and the client's term with the same function, `Text.Lower`. In the program the two sides differ even in the invariant culture. The client's `toLowerCase()` applies Unicode special casing such as Final_Sigma, while the server's `ToLower()` maps each character on its own. For example, the term `ΟΣ` lowers to `οσ` on the server and `ος` on the client. So an active product named `ΟΣΑ` is found by the server search but dropped by the fallback.
- Seed.AdminLoginOnSeed: holds under ASCII folding, which here agrees with the invariant culture. Under tr-TR, `ADMIN@SMARTCART.COM` lowers to a dotless `ı` and does not find the administrator.
- UserRepository.GetByEmailIgnoresCase: also rests on that folding, as does the matching in ProductRepository.Search. Under tr-TR the server's search for `IPHONE` does not find `iPhone`.
- Text.LessEq: ordinal code-point order stands in for the culture-sensitive comparison `OrderBy(p => p.Name)` uses.
- UserInfoJson.Decode: reads only the compact object shape that login writes, with `email` before `role`. `JSON.parse` accepts any JSON text, but a summary in another shape is refused here as if unparsable. Surrogate escapes are refused rather than paired.
- AuthSession.Construct: `JSON.parse` throws `SyntaxError` on a bad summary. The model answers `Err` and does not model the page failing to start.
- AuthSession.Login: models the reply after it arrives. The HTTP call and the observable's subscription are not modelled. `getCurrentUser` is the `current` field.
- ProductListView.OnSearch: uses the search term and loaded list as they are when the reply arrives. A term typed or a load finished while the call is in flight is not modelled. The search term's URL encoding is taken as lossless.
- ProductListView.OnImageError: `Math.floor(Math.random() * 1000)` is the parameter `n`, required to be below 1000 as the expression guarantees. The SVG data URI containing no `picsum.photos`, so that a third failure goes back to a random URL, is not proved.
- `addToCart`, `showAddProduct`, the page's `logout` navigation and change detection (`markForCheck`) are user-interface effects and are left out.
- Backend.NoBadRequests: model binding is not modelled. In an `[ApiController]` (backend/Controllers/ProductController.cs:8) the framework answers 400 before the action runs for a non-integer route id, a missing or unparsable JSON body, or a body the binder rejects. A request with a null `Email` would throw on `ToLower()` and answer 400 as well. The model's `Backend.Request` is a request after binding, with every field a string, so none of these is expressible.
- Exceptions the database could raise are not raised by the model. `Exn` is there for the controllers' 400 paths, which the model shows unreachable.

=== FILE: auth_session.dfy ===
/**
 * The client's authentication service: the token and user summary it keeps
 * in local storage, the current user it publishes, and the checks the
 * pages ask of it. The HTTP reply to a login is a parameter.
 */
module AuthSession {
  import opened Wrappers
  import UserService
  import Json = UserInfoJson

  const TokenKey := "token"
  const UserInfoKey := "userInfo"

  /** The client's `User`: the id is 0 after a login, and absent when the
      user was restored from storage, whose summary has no id. */
  datatype ClientUser = ClientUser(id: Option<int>, email: string, role: string)

  /** Local storage (other keys included) and the current-user subject. */
  datatype Session = Session(storage: map<string, string>, current: Option<ClientUser>)

  /** A failed HTTP call, by status. */
  datatype HttpFailure = HttpFailure(status: int)

  /** `localStorage.getItem(key)`: null when the key is absent. */
  function Get(storage: map<string, string>, key: string): (r: Option<string>)
    ensures r.Some? <==> key in storage
    ensures r.Some? ==> r.value == storage[key]
  {
    if key in storage then Some(storage[key]) else None
  }

  /** JavaScript truthiness of a `string | null`: present and non-empty. */
  predicate Truthy(v: Option<string>) {
    v.Some? && v.value != ""
  }

  /** The constructor: the current user is restored only when both entries
      are present and non-empty; an unreadable summary throws, which the
      model answers with `Err`. */
  function Construct(storage: map<string, string>): (r: Result<Session, string>)
    ensures r.Ok? ==> r.value.storage == storage
    ensures r.Ok? && r.value.current.None? <==> !(Truthy(Get(storage, TokenKey)) && Truthy(Get(storage, UserInfoKey)))
    ensures r.Err? <==>
      Truthy(Get(storage, TokenKey)) && Truthy(Get(storage, UserInfoKey)) && Json.Decode(storage[UserInfoKey]).None?
    ensures r.Ok? && r.value.current.Some? ==>
      && r.value.current.value.id.None?
      && Json.Decode(storage[UserInfoKey]) ==
           Some(Json.UserInfo(r.value.current.value.email, r.value.current.value.role))
  {
    if Truthy(Get(storage, TokenKey)) && Truthy(Get(storage, UserInfoKey)) then
      match Json.Decode(storage[UserInfoKey])
      case None => Err("SyntaxError")
      case Some(info) => Ok(Session(storage, Some(ClientUser(None, info.email, info.role))))
    else Ok(Session(storage, None))
  }

  /** `login`: on a reply, stores the token and the summary and publishes a
      user with id 0; a failed call changes nothing and reaches the caller. */
  function Login(sess: Session, reply: Result<UserService.AuthResponse, HttpFailure>): (r: (Session, Result<UserService.AuthResponse, HttpFailure>))
    ensures r.1 == reply
    ensures reply.Err? ==> r.0 == sess
    ensures reply.Ok? ==>
      && Get(r.0.storage, TokenKey) == Some(reply.value.token)
      && Get(r.0.storage, UserInfoKey) == Some(Json.Encode(Json.UserInfo(reply.value.email, reply.value.role)))
      && r.0.current == Some(ClientUser(Some(0), reply.value.email, reply.value.role))
    ensures forall k :: k != TokenKey && k != UserInfoKey ==> Get(r.0.storage, k) == Get(sess.storage, k)
  {
    match reply
    case Err(_) => (sess, reply)
    case Ok(a) =>
      var info := Json.Encode(Json.UserInfo(a.email, a.role));
      (Session(sess.storage[TokenKey := a.token][UserInfoKey := info], Some(ClientUser(Some(0), a.email, a.role))), reply)
  }

  /** `logout`: removes both entries and clears the current user; other
      entries stay. */
  function Logout(sess: Session): (r: Session)
    ensures TokenKey !in r.storage && UserInfoKey !in r.storage
    ensures forall k :: k != TokenKey && k != UserInfoKey ==> Get(r.storage, k) == Get(sess.storage, k)
    ensures r.current.None?
  {
    Session(sess.storage - {TokenKey, UserInfoKey}, None)
  }

  /** `isAuthenticated`: `!!localStorage.getItem('token')`. */
  function IsAuthenticated(sess: Session): (r: bool)
    ensures r <==> TokenKey in sess.storage && sess.storage[TokenKey] != ""
  {
    Truthy(Get(sess.storage, TokenKey))
  }

  /** `isLoggedIn`: written separately, the same test as `isAuthenticated`. */
  function IsLoggedIn(sess: Session): (r: bool)
    ensures r <==> TokenKey in sess.storage && sess.storage[TokenKey] != ""
  {
    Truthy(Get(sess.storage, TokenKey))
  }

  /** `isAdmin`: the current user's role is exactly `Admin`; storage and the
      token are not consulted. */
  function IsAdmin(sess: Session): (r: bool)
    ensures r <==> sess.current.Some? && sess.current.value.role == "Admin"
  {
    sess.current.Some? && sess.current.value.role == "Admin"
  }

  /** `getToken`: the stored token, or null. */
  function GetToken(sess: Session): (r: Option<string>)
    ensures r.Some? <==> TokenKey in sess.storage
    ensures r.Some? ==> r.value == sess.storage[TokenKey]
  {
    Get(sess.storage, TokenKey)
  }

  /** After a successful login the token handed out is the reply's; a
      failed login hands out whatever was stored before. */
  lemma TokenAfterLogin(sess: Session, reply: Result<UserService.AuthResponse, HttpFailure>)
    ensures reply.Ok? ==> GetToken(Login(sess, reply).0) == Some(reply.value.token)
    ensures reply.Err? ==> GetToken(Login(sess, reply).0) == GetToken(sess)
  {
  }

  /** The two login checks agree on every session. */
  lemma LoginChecksAgree(sess: Session)
    ensures IsAuthenticated(sess) <==> IsLoggedIn(sess)
  {
  }

  /** After logout no check passes and no token is handed out, and a
      reload of the page restores nobody. */
  lemma LogoutClears(sess: Session)
    ensures !IsAuthenticated(Logout(sess)) && !IsLoggedIn(Logout(sess)) && !IsAdmin(Logout(sess))
    ensures GetToken(Logout(sess)).None?
    ensures Construct(Logout(sess).storage) == Ok(Session(Logout(sess).storage, None))
  {
  }

  /** A reload after a successful login with a non-empty token restores the
      same e-mail and role (without the id), and so the same admin
      decision. */
  lemma ReloadAfterLogin(sess: Session, a: UserService.AuthResponse)
    requires a.token != ""
    ensures var s' := Login(sess, Ok(a)).0;
      && Construct(s'.storage) == Ok(Session(s'.storage, Some(ClientUser(None, a.email, a.role))))
      && IsAuthenticated(s')
      && (IsAdmin(s') <==> a.role == "Admin")
  {
    var info := Json.UserInfo(a.email, a.role);
    Json.DecodeEncode(info);
    assert Json.Encode(info) != "" by {
      assert Json.Encode(info)[0] == '{';
    }
  }

  /** The admin check and the login check can disagree: a login reply
      with an empty token leaves an administrator on the page whom
      `isAuthenticated` does not see, and a reload forgets. */
  lemma AdminWithoutToken(sess: Session, a: UserService.AuthResponse)
    requires a.token == "" && a.role == "Admin"
    ensures var s' := Login(sess, Ok(a)).0;
      && IsAdmin(s') && !IsAuthenticated(s')
      && Construct(s'.storage) == Ok(Session(s'.storage, None))
  {
  }
}

=== FILE: authorization.dfy ===
/**
 * The `[Authorize]` and `[Authorize(Roles = "...")]` gates. Bearer-token
 * validation is the framework's: the model starts from its result, a caller
 * that is either anonymous or authenticated with an optional role claim.
 */
module Authorization {
  import opened Wrappers

  /** Who is calling, as the token validation middleware leaves it. */
  datatype Caller = Anonymous | Authenticated(role: Option<string>)

  /** What an endpoint demands: nothing, any authenticated caller, or a
      caller whose role claim is exactly the named role. */
  datatype Policy = AllowAnonymous | RequireAuthenticated | RequireRole(role: string)

  /** Allow, or refuse with a challenge (no identity) or a forbid (identity
      without the role). */
  datatype Decision = Allow | Challenge | Forbid

  function Authorize(p: Policy, c: Caller): (d: Decision)
    ensures d == Allow <==>
      p.AllowAnonymous? || (c.Authenticated? && (p.RequireRole? ==> c.role == Some(p.role)))
    ensures d == Challenge <==> !p.AllowAnonymous? && c.Anonymous?
  {
    match p
    case AllowAnonymous => Allow
    case RequireAuthenticated => if c.Anonymous? then Challenge else Allow
    case RequireRole(role) =>
      if c.Anonymous? then Challenge
      else if c.role == Some(role) then Allow
      else Forbid
  }
}

=== FILE: backend.dfy ===
/**
 * The backend as one state machine: the two tables, and a request handled
 * by first applying the action's gate and then running the controller
 * action over the services.
 */
module Backend {
  import opened Wrappers
  import opened Models
  import opened Seqs
  import opened Authorization
  import opened Http
  import Text
  import UserRepository
  import ProductRepository
  import UserService
  import ProductService
  import UserController
  import ProductController

  datatype State = State(users: UserRepository.Store, products: ProductRepository.Store)

  /** What the handlers take from outside: the foreign calls and the clock. */
  datatype Env = Env(crypto: UserService.Crypto, now: Instant)

  /** A request after model binding: the route id is an integer and the
      body a complete request object. */
  datatype Request =
    | Login(login: UserService.LoginRequest)
    | Register(register: UserService.RegisterRequest)
    | GetUser(userId: int)
    | GetAllUsers
    | GetAllProducts
    | GetProduct(productId: int)
    | SearchProducts(q: Option<string>)
    | CreateProduct(create: ProductService.CreateProductRequest)
    | UpdateProduct(productId: int, update: ProductService.CreateProductRequest)
    | DeleteProduct(productId: int)

  /** The key and uniqueness constraints the database context declares:
      distinct ids in both tables, and distinct e-mails (here even up to
      letter case, which registration maintains). */
  predicate Valid(st: State) {
    && UniqueKeys(st.users, UserRepository.Key)
    && UserRepository.EmailsDistinct(st.users)
    && UniqueKeys(st.products, ProductRepository.Key)
  }

  function GateOf(req: Request): Policy {
    match req
    case Login(_) => UserController.Gate(UserController.Login)
    case Register(_) => UserController.Gate(UserController.Register)
    case GetUser(_) => UserController.Gate(UserController.GetUser)
    case GetAllUsers => UserController.Gate(UserController.GetAllUsers)
    case GetAllProducts => ProductController.Gate(ProductController.GetAllProducts)
    case GetProduct(_) => ProductController.Gate(ProductController.GetProduct)
    case SearchProducts(_) => ProductController.Gate(ProductController.SearchProducts)
    case CreateProduct(_) => ProductController.Gate(ProductController.CreateProduct)
    case UpdateProduct(_, _) => ProductController.Gate(ProductController.UpdateProduct)
    case DeleteProduct(_) => ProductController.Gate(ProductController.DeleteProduct)
  }

  /** The requests whose action writes to a table. */
  predicate Writes(req: Request) {
    req.Register? || req.CreateProduct? || req.UpdateProduct? || req.DeleteProduct?
  }

  /** Runs the controller action once the gate has let the request in. */
  function Run(st: State, env: Env, req: Request): (r: (State, Response))
    ensures !Writes(req) ==> r.0 == st
    ensures r.0.users == st.users || req.Register?
    ensures r.0.products == st.products || req.CreateProduct? || req.UpdateProduct? || req.DeleteProduct?
  {
    match req
    case Login(l) =>
      (st, UserController.LoginAnswer(Returned(UserService.Login(st.users, env.crypto, l))))
    case Register(reg) =>
      var step := UserService.Register(st.users, env.crypto, reg, env.now);
      (st.(users := step.store), UserController.RegisterAnswer(step.outcome))
    case GetUser(id) =>
      (st, UserController.GetUserAnswer(Returned(UserService.GetUserById(st.users, id))))
    case GetAllUsers =>
      (st, UserController.GetAllUsersAnswer(Returned(UserService.GetAllUsers(st.users))))
    case GetAllProducts =>
      (st, ListingAnswer(st.products))
    case GetProduct(id) =>
      (st, ProductController.OneAnswer(Returned(ProductService.GetProductById(st.products, id)), "retrieving"))
    case SearchProducts(q) =>
      (st, SearchAnswer(st.products, q))
    case CreateProduct(c) =>
      var step := ProductService.CreateProduct(st.products, c, env.now);
      (st.(products := step.store), ProductController.CreateAnswer(step.outcome))
    case UpdateProduct(id, u) =>
      var step := ProductService.UpdateProduct(st.products, id, u);
      (st.(products := step.store), ProductController.OneAnswer(step.outcome, "updating"))
    case DeleteProduct(id) =>
      var step := ProductService.DeleteProduct(st.products, id);
      (st.(products := step.store), ProductController.DeleteAnswer(step.outcome))
  }

  /** The listing action's answer. */
  function ListingAnswer(p: ProductRepository.Store): Response {
    ProductController.ListAnswer(Returned(ProductService.GetAllProducts(p)), "retrieving")
  }

  /** The search action's answer; a missing `q` is searched as "". */
  function SearchAnswer(p: ProductRepository.Store, q: Option<string>): Response {
    ProductController.ListAnswer(Returned(ProductService.SearchProducts(p, Some(ProductController.SearchQuery(q)))), "searching")
  }

  /** One request: a refused request is answered by the gate and changes
      nothing; an admitted one runs its action. */
  function Handle(st: State, env: Env, caller: Caller, req: Request): (r: (State, Response))
    ensures Authorize(GateOf(req), caller) == Challenge ==> r == (st, Response(StatusUnauthorized, NoBody))
    ensures Authorize(GateOf(req), caller) == Forbid ==> r == (st, Response(StatusForbidden, NoBody))
    ensures !Writes(req) ==> r.0 == st
  {
    var d := Authorize(GateOf(req), caller);
    if d != Allow then (st, Refusal(d)) else Run(st, env, req)
  }

  /** Every request, admitted or not, keeps the key and e-mail constraints. */
  lemma HandlePreservesValid(st: State, env: Env, caller: Caller, req: Request)
    requires Valid(st)
    ensures Valid(Handle(st, env, caller, req).0)
  {
  }

  /** No well-formed request answers 400: once the route and body are
      bound, the only exception the services raise is registration's
      `InvalidOperationException`, answered 409. */
  lemma NoBadRequests(st: State, env: Env, caller: Caller, req: Request)
    ensures Handle(st, env, caller, req).1.status != StatusBadRequest
  {
  }

  /** A search without the `q` parameter answers exactly as the listing. */
  lemma MissingQueryListsAll(st: State, env: Env, caller: Caller)
    ensures Handle(st, env, caller, SearchProducts(None)) == Handle(st, env, caller, GetAllProducts)
  {
    HandleAdmitted(st, env, caller, SearchProducts(None));
    HandleAdmitted(st, env, caller, GetAllProducts);
    RunSearchWithoutQuery(st, env);
  }

  lemma RunSearchWithoutQuery(st: State, env: Env)
    ensures Run(st, env, SearchProducts(None)) == Run(st, env, GetAllProducts)
  {
    RunListings(st, env, SearchProducts(None));
    RunListings(st, env, GetAllProducts);
    SearchWithoutQuery(st.products);
  }

  /** The answers of the two listing actions. */
  lemma RunListings(st: State, env: Env, req: Request)
    ensures req.SearchProducts? ==> Run(st, env, req) == (st, SearchAnswer(st.products, req.q))
    ensures req.GetAllProducts? ==> Run(st, env, req) == (st, ListingAnswer(st.products))
  {
  }

  lemma SearchWithoutQuery(s: ProductRepository.Store)
    ensures SearchAnswer(s, None) == ListingAnswer(s)
  {
    assert Text.IsNullOrWhiteSpace(Some(""));
    assert ProductService.SearchProducts(s, Some(ProductController.SearchQuery(None))) == ProductService.GetAllProducts(s);
  }

  /** Unknown e-mail and wrong password give the same answer: 401 with the
      same message. */
  lemma LoginFailuresLookAlike(st: State, env: Env, caller: Caller, req: UserService.LoginRequest)
    requires UserService.Login(st.users, env.crypto, req).None?
    ensures Handle(st, env, caller, Login(req)) ==
      (st, Response(StatusUnauthorized, Message(UserController.InvalidCredentialsMessage)))
  {
  }

  /** Deleting a product that is already soft-deleted answers 204 again,
      while updating or reading it answers 404. */
  lemma DeletedProductAnswers(st: State, env: Env, admin: Caller, id: int, u: ProductService.CreateProductRequest)
    requires Valid(st) && admin == Authenticated(Some("Admin"))
    requires HasKey(st.products, ProductRepository.Key, id)
    ensures var st' := Handle(st, env, admin, DeleteProduct(id)).0;
      && Handle(st, env, admin, DeleteProduct(id)).1.status == StatusNoContent
      && Handle(st', env, admin, DeleteProduct(id)).1.status == StatusNoContent
      && Handle(st', env, admin, UpdateProduct(id, u)).1.status == StatusNotFound
      && Handle(st', env, admin, GetProduct(id)).1.status == StatusNotFound
  {
    var st' := Run(st, env, DeleteProduct(id)).0;
    AdminAdmitted(st, env, DeleteProduct(id));
    AdminAdmitted(st', env, DeleteProduct(id));
    AdminAdmitted(st', env, UpdateProduct(id, u));
    AdminAdmitted(st', env, GetProduct(id));
    RunAfterDelete(st, env, id, u);
  }

  /** The actions' answers on a product just deleted. */
  lemma RunAfterDelete(st: State, env: Env, id: int, u: ProductService.CreateProductRequest)
    requires UniqueKeys(st.products, ProductRepository.Key) && HasKey(st.products, ProductRepository.Key, id)
    ensures var st' := Run(st, env, DeleteProduct(id)).0;
      && Run(st, env, DeleteProduct(id)).1.status == StatusNoContent
      && Run(st', env, DeleteProduct(id)).1.status == StatusNoContent
      && Run(st', env, UpdateProduct(id, u)).1.status == StatusNotFound
      && Run(st', env, GetProduct(id)).1.status == StatusNotFound
  {
    var st' := Run(st, env, DeleteProduct(id)).0;
    ProductService.DeletedProductAsymmetry(st.products, id, u);
    RunOnProduct(st, env, DeleteProduct(id));
    RunOnProduct(st', env, DeleteProduct(id));
    RunOnProduct(st', env, UpdateProduct(id, u));
    RunOnProduct(st', env, GetProduct(id));
  }

  /** The answers of the actions on one product. */
  lemma RunOnProduct(st: State, env: Env, req: Request)
    ensures req.GetProduct? ==>
      Run(st, env, req) == (st, ProductController.OneAnswer(Returned(ProductService.GetProductById(st.products, req.productId)), "retrieving"))
    ensures req.UpdateProduct? ==> var step := ProductService.UpdateProduct(st.products, req.productId, req.update);
      Run(st, env, req) == (st.(products := step.store), ProductController.OneAnswer(step.outcome, "updating"))
    ensures req.DeleteProduct? ==> var step := ProductService.DeleteProduct(st.products, req.productId);
      Run(st, env, req) == (st.(products := step.store), ProductController.DeleteAnswer(step.outcome))
  {
  }

  /** The administrator passes every gate. */
  lemma AdminAdmitted(st: State, env: Env, req: Request)
    ensures Handle(st, env, Authenticated(Some("Admin")), req) == Run(st, env, req)
  {
  }

  /** An admitted request is answered by its action. */
  lemma HandleAdmitted(st: State, env: Env, caller: Caller, req: Request)
    requires Authorize(GateOf(req), caller) == Allow
    ensures Handle(st, env, caller, req) == Run(st, env, req)
  {
  }
}

=== FILE: http.dfy ===
/** HTTP responses as the controllers produce them: a status and a body. */
module Http {
  import opened Authorization
  import UserService
  import ProductService

  const StatusOk := 200
  const StatusCreated := 201
  const StatusNoContent := 204
  const StatusBadRequest := 400
  const StatusUnauthorized := 401
  const StatusForbidden := 403
  const StatusNotFound := 404
  const StatusConflict := 409

  datatype Body =
    | NoBody
    | Message(text: string)
    | Auth(auth: UserService.AuthResponse)
    | OneUser(user: UserService.UserResponse)
    | Users(users: seq<UserService.UserResponse>)
    | OneProduct(product: ProductService.ProductResponse)
    | Products(products: seq<ProductService.ProductResponse>)
    | Problem(problemStatus: int)

  datatype Response = Response(status: int, body: Body)

  /** A bare status result such as `NotFound()` in an `[ApiController]`:
      the framework writes a problem-details body carrying the status. */
  function StatusProblem(status: int): (r: Response)
    ensures r.status == status && r.body.Problem? && r.body.problemStatus == status
  {
    Response(status, Problem(status))
  }

  /** The framework's answer when a gate refuses: 401 without an identity,
      403 with one. */
  function Refusal(d: Decision): (r: Response)
    requires d != Allow
    ensures r.status == (if d == Challenge then StatusUnauthorized else StatusForbidden)
    ensures r.body == NoBody
  {
    if d == Challenge then Response(StatusUnauthorized, NoBody) else Response(StatusForbidden, NoBody)
  }
}

=== FILE: json.dfy ===
/**
 * The `userInfo` entry the client keeps in local storage: the JSON text
 * `JSON.stringify({ email, role })` writes, and the reading `JSON.parse`
 * gives it back. Only the object shape the writer produces is read.
 */
module UserInfoJson {
  import opened Wrappers

  datatype UserInfo = UserInfo(email: string, role: string)

  /** Lower-case hexadecimal digit, as `JSON.stringify` writes them. */
  function HexDigit(d: nat): char
    requires d < 16
  {
    if d < 10 then ('0' as int + d) as char else ('a' as int + d - 10) as char
  }

  /** The value of a hexadecimal digit of either case. */
  function HexValue(c: char): (r: Option<nat>)
    ensures r.Some? ==> r.value < 16
  {
    if '0' <= c <= '9' then Some(c as int - '0' as int)
    else if 'a' <= c <= 'f' then Some(c as int - 'a' as int + 10)
    else if 'A' <= c <= 'F' then Some(c as int - 'A' as int + 10)
    else None
  }

  lemma HexDigitValue(d: nat)
    requires d < 16
    ensures HexValue(HexDigit(d)) == Some(d)
  {
  }

  /** How `JSON.stringify` writes one character inside a string literal:
      the quote and the backslash escaped, the five controls with a short
      escape written short, the other controls below U+0020 as `\u00xx`,
      everything else as itself. A Dafny `char` is a Unicode scalar value,
      so the lone surrogates the writer would also escape do not occur. */
  function EscapeChar(c: char): (r: string)
    ensures r != []
    ensures r[0] == '\\' <==> c == '"' || c == '\\' || c < ' '
    ensures c >= ' ' && c != '"' && c != '\\' ==> r == [c]
  {
    if c == '"' then "\\\""
    else if c == '\\' then "\\\\"
    else if c == '\U{0008}' then "\\b"
    else if c == '\t' then "\\t"
    else if c == '\n' then "\\n"
    else if c == '\U{000C}' then "\\f"
    else if c == '\r' then "\\r"
    else if c < ' ' then "\\u00" + [HexDigit(c as int / 16), HexDigit(c as int % 16)]
    else [c]
  }

  function Escape(s: string): string
    decreases |s|
  {
    if s == [] then [] else EscapeChar(s[0]) + Escape(s[1..])
  }

  /** The fixed text around the two values. */
  const Open := "{\"email\":\""
  const Separator := ",\"role\":\""
  const Close := "}"

  /** `JSON.stringify({ email: email, role: role })`: each value as a
      quoted, escaped string literal, no white space. */
  function Encode(info: UserInfo): (r: string)
    ensures |r| > |Open| && r[..|Open|] == Open && r[|r| - 1] == '}'
  {
    Open + (Escape(info.email) + "\"" + (Separator + (Escape(info.role) + "\"" + Close)))
  }

  /** The character a one-letter escape stands for. */
  function ShortEscape(c: char): Option<char> {
    if c == '"' then Some('"')
    else if c == '\\' then Some('\\')
    else if c == '/' then Some('/')
    else if c == 'b' then Some('\U{0008}')
    else if c == 'f' then Some('\U{000C}')
    else if c == 'n' then Some('\n')
    else if c == 'r' then Some('\r')
    else if c == 't' then Some('\t')
    else None
  }

  /** The code unit four hexadecimal digits denote. */
  function Hex4(s: string): (r: Option<nat>)
    requires |s| == 4
    ensures r.Some? ==> r.value < 0x1_0000
  {
    match (HexValue(s[0]), HexValue(s[1]), HexValue(s[2]), HexValue(s[3]))
    case (Some(a), Some(b), Some(c), Some(d)) => Some(((a * 16 + b) * 16 + c) * 16 + d)
    case _ => None
  }

  /** Reads the body of a string literal up to its closing quote: the
      characters it denotes and what follows the quote. A raw control
      character, an unknown escape and a surrogate code unit (which
      `JSON.parse` would pair up) are refused. */
  function ReadString(s: string): (r: Option<(string, string)>)
    ensures r.Some? ==> |r.value.1| < |s| && r.value.1 == s[|s| - |r.value.1|..]
    decreases |s|
  {
    if s == [] then None
    else if s[0] == '"' then Some(([], s[1..]))
    else if s[0] < ' ' then None
    else if s[0] != '\\' then Prepend(s[0], ReadString(s[1..]))
    else if |s| < 2 then None
    else if s[1] == 'u' then
      if |s| < 6 then None
      else match Hex4(s[2..6])
        case None => None
        case Some(v) =>
          if 0xD800 <= v < 0xE000 then None
          else Prepend(v as char, ReadString(s[6..]))
    else match ShortEscape(s[1])
      case None => None
      case Some(c) => Prepend(c, ReadString(s[2..]))
  }

  function Prepend(c: char, r: Option<(string, string)>): (r': Option<(string, string)>)
    ensures r'.Some? <==> r.Some?
    ensures r'.Some? ==> r'.value == ([c] + r.value.0, r.value.1)
  {
    match r
    case None => None
    case Some((t, rest)) => Some(([c] + t, rest))
  }

  /** Reading an escaped character back gives the character. */
  lemma EscapeCharRoundTrip(c: char, tail: string)
    ensures ReadString(EscapeChar(c) + tail) == Prepend(c, ReadString(tail))
  {
    if c < ' ' && c != '\U{0008}' && c != '\t' && c != '\n' && c != '\U{000C}' && c != '\r' {
      UnicodeEscapeRoundTrip(c, tail);
    } else if EscapeChar(c) == [c] {
      assert ([c] + tail)[1..] == tail;
    } else {
      assert (EscapeChar(c) + tail)[2..] == tail;
    }
  }

  /** A control character without a short escape is read back from its
      `\u00xx` form. */
  lemma UnicodeEscapeRoundTrip(c: char, tail: string)
    requires c < ' ' && c != '\U{0008}' && c != '\t' && c != '\n' && c != '\U{000C}' && c != '\r'
    ensures ReadString(EscapeChar(c) + tail) == Prepend(c, ReadString(tail))
  {
    var hi, lo := c as int / 16, c as int % 16;
    HexDigitValue(hi);
    HexDigitValue(lo);
    var s := EscapeChar(c) + tail;
    assert s[2..6] == ['0', '0', HexDigit(hi), HexDigit(lo)];
    assert s[6..] == tail;
    assert ((0 * 16 + 0) * 16 + hi) * 16 + lo == c as int;
  }

  /** Reading an escaped string followed by a closing quote gives the
      string and whatever follows. */
  lemma {:induction false} ReadEscaped(x: string, rest: string)
    ensures ReadString(Escape(x) + "\"" + rest) == Some((x, rest))
    decreases |x|
  {
    if x == [] {
      assert Escape(x) + "\"" + rest == ['"'] + rest;
    } else {
      ReadEscaped(x[1..], rest);
      var tail := Escape(x[1..]) + "\"" + rest;
      assert Escape(x) + "\"" + rest == EscapeChar(x[0]) + tail;
      EscapeCharRoundTrip(x[0], tail);
      assert [x[0]] + x[1..] == x;
    }
  }

  /** `JSON.parse` of the text the writer produces. */
  function Decode(s: string): (r: Option<UserInfo>)
    ensures r.Some? ==> |s| > |Open| && s[..|Open|] == Open && s[|s| - 1] == '}'
  {
    if |s| < |Open| || s[..|Open|] != Open then None
    else match ReadString(s[|Open|..])
      case None => None
      case Some((email, rest)) =>
        if |rest| < |Separator| || rest[..|Separator|] != Separator then None
        else match ReadString(rest[|Separator|..])
          case None => None
          case Some((role, tail)) => if tail == Close then Some(UserInfo(email, role)) else None
  }

  /** What the writer writes, the reader reads back unchanged. */
  lemma DecodeEncode(info: UserInfo)
    ensures Decode(Encode(info)) == Some(info)
  {
    var rest := Separator + (Escape(info.role) + "\"" + Close);
    ReadAfter(Open, info.email, rest);
    ReadAfter(Separator, info.role, Close);
  }

  /** After a fixed text, an escaped value and its closing quote read back
      as the value. */
  lemma ReadAfter(prefix: string, x: string, tail: string)
    ensures var s := prefix + (Escape(x) + "\"" + tail);
      && |s| >= |prefix| && s[..|prefix|] == prefix
      && ReadString(s[|prefix|..]) == Some((x, tail))
  {
    var s := prefix + (Escape(x) + "\"" + tail);
    assert s[|prefix|..] == Escape(x) + "\"" + tail;
    ReadEscaped(x, tail);
  }
}

=== FILE: models.dfy ===
/**
 * The two persisted entities, `User` and `Product`, their property defaults,
 * the role enumeration and its integer storage form, and the column limits
 * the database context declares for them.
 */
module Models {
  import opened Wrappers

  /** `DateTime` values are opaque: a tick count supplied by the caller. */
  type Instant = int

  /** `UserRole`: exactly two members. */
  datatype Role = Customer | Admin

  /** The integer the enumeration member stands for, which is also the value
      the database column holds. */
  function RoleValue(r: Role): int {
    match r
    case Customer => 0
    case Admin => 1
  }

  /** Reading the role column back: only 0 and 1 name a member. */
  function RoleFromValue(n: int): (r: Option<Role>)
    ensures r.Some? <==> n == 0 || n == 1
    ensures r.Some? ==> RoleValue(r.value) == n
  {
    if n == 0 then Some(Customer) else if n == 1 then Some(Admin) else None
  }

  /** Storing a role and reading it back returns the same role. */
  lemma RoleStorageRoundTrip(r: Role)
    ensures RoleFromValue(RoleValue(r)) == Some(r)
  {
  }

  /** `Role.ToString()`: the member's name. */
  function RoleName(r: Role): string {
    match r
    case Customer => "Customer"
    case Admin => "Admin"
  }

  /** Distinct roles have distinct names, so a role claim identifies the role. */
  lemma RoleNameInjective(a: Role, b: Role)
    ensures RoleName(a) == RoleName(b) <==> a == b
  {
  }

  datatype User = User(id: int, email: string, passwordHash: string, role: Role, createdAt: Instant)

  /** `new User()`: every property at its declared default; `CreatedAt` is
      the clock reading `now`. */
  function NewUser(now: Instant): (u: User)
    ensures u.id == 0 && u.email == "" && u.passwordHash == ""
    ensures u.role == Customer && u.createdAt == now
  {
    User(0, "", "", Customer, now)
  }

  /** `decimal` prices are only copied, never computed with, so an exact
      rational stands in for them. */
  type Price = real

  datatype Product = Product(
    id: int,
    name: string,
    price: Price,
    description: string,
    imageUrl: string,
    createdAt: Instant,
    isActive: bool)

  /** `new Product()`: empty strings, zero price, and active. */
  function NewProduct(now: Instant): (p: Product)
    ensures p.id == 0 && p.price == 0.0 && p.createdAt == now
    ensures p.name == "" && p.description == "" && p.imageUrl == ""
    ensures p.isActive
  {
    Product(0, "", 0.0, "", "", now, true)
  }

  /** The placeholder image service both the seed and the product list
      use: a product image is this prefix followed by a decimal number. */
  const PicsumHost := "picsum.photos"
  const PicsumPrefix := "https://" + PicsumHost + "/300/200?random="

  /** The column limits declared for users: `Email` at most 255 characters.
      (`Email` and `PasswordHash` are also required, i.e. non-null, which a
      Dafny string always is.) */
  predicate UserFitsSchema(u: User) {
    |u.email| <= 255
  }

  /** The column limits declared for products. */
  predicate ProductFitsSchema(p: Product) {
    |p.name| <= 255 && |p.description| <= 1000 && |p.imageUrl| <= 500
  }

  /** The exceptions the model raises. `InvalidOperation` is the one the
      user controller singles out. */
  datatype Exn =
    | InvalidOperation(message: string)
    | DbUpdateConcurrency(message: string)
    | Failure(message: string)

  /** What a service call does: return a value or throw. */
  datatype Outcome<+T> = Returned(value: T) | Threw(exn: Exn)

  /** A service call on a store: the store afterwards and the outcome. */
  datatype Step<+S, +T> = Step(store: S, outcome: Outcome<T>)
}

=== FILE: name_order.dfy ===
/**
 * `OrderBy(p => p.Name)`: a stable sort of products by name. The model sorts
 * by insertion, which keeps products with equal names in store order, as a
 * stable `OrderBy` does.
 */
module NameOrder {
  import opened Models
  import opened Seqs
  import Text

  predicate SortedByName(s: seq<Product>) {
    forall i, j {:trigger Text.LessEq(s[i].name, s[j].name)} :: 0 <= i < j < |s| ==> Text.LessEq(s[i].name, s[j].name)
  }

  /** Puts `p` before the first element whose name is not smaller. */
  function Insert(p: Product, s: seq<Product>): seq<Product>
    decreases |s|
  {
    if s == [] then [p]
    else if Text.LessEq(p.name, s[0].name) then [p] + s
    else [s[0]] + Insert(p, s[1..])
  }

  lemma {:induction false} InsertMultiset(p: Product, s: seq<Product>)
    ensures multiset(Insert(p, s)) == multiset(s) + multiset{p}
    decreases |s|
  {
    if s != [] && !Text.LessEq(p.name, s[0].name) {
      InsertMultiset(p, s[1..]);
      HeadTailMultiset(s);
    }
  }

  /** A product no greater than every element of a sorted list can head it. */
  lemma SortedCons(x: Product, t: seq<Product>)
    requires SortedByName(t)
    requires forall k :: 0 <= k < |t| ==> Text.LessEq(x.name, t[k].name)
    ensures SortedByName([x] + t)
  {
    var r := [x] + t;
    forall i, j | 0 <= i < j < |r|
      ensures Text.LessEq(r[i].name, r[j].name)
    {
      if i == 0 {
        assert r[j] == t[j - 1];
      } else {
        assert r[i] == t[i - 1] && r[j] == t[j - 1];
      }
    }
  }

  /** A lower bound of `p` and of every element of `s` bounds every
      element of `Insert(p, s)`. */
  lemma {:induction false} InsertLowerBound(x: string, p: Product, s: seq<Product>)
    requires Text.LessEq(x, p.name)
    requires forall k :: 0 <= k < |s| ==> Text.LessEq(x, s[k].name)
    ensures forall k :: 0 <= k < |Insert(p, s)| ==> Text.LessEq(x, Insert(p, s)[k].name)
    decreases |s|
  {
    if s != [] && !Text.LessEq(p.name, s[0].name) {
      InsertLowerBound(x, p, s[1..]);
      var r := Insert(p, s);
      forall k | 0 <= k < |r|
        ensures Text.LessEq(x, r[k].name)
      {
        if k > 0 {
          assert r[k] == Insert(p, s[1..])[k - 1];
        }
      }
    }
  }

  lemma {:induction false} InsertSorted(p: Product, s: seq<Product>)
    requires SortedByName(s)
    ensures SortedByName(Insert(p, s))
    decreases |s|
  {
    if s == [] {
    } else if Text.LessEq(p.name, s[0].name) {
      forall k | 0 <= k < |s|
        ensures Text.LessEq(p.name, s[k].name)
      {
        if k > 0 {
          Text.LessEqTransitive(p.name, s[0].name, s[k].name);
        }
      }
      SortedCons(p, s);
    } else {
      Text.LessEqTotal(p.name, s[0].name);
      InsertSorted(p, s[1..]);
      InsertLowerBound(s[0].name, p, s[1..]);
      SortedCons(s[0], Insert(p, s[1..]));
    }
  }

  /** The products of `s` sorted by name; products with equal names keep
      their relative order. */
  function OrderByName(s: seq<Product>): (r: seq<Product>)
    ensures SortedByName(r)
    ensures multiset(r) == multiset(s)
    decreases |s|
  {
    if s == [] then []
    else
      var t := OrderByName(s[1..]);
      InsertSorted(s[0], t);
      InsertMultiset(s[0], t);
      HeadTailMultiset(s);
      Insert(s[0], t)
  }

  lemma HeadTailMultiset(s: seq<Product>)
    requires s != []
    ensures multiset(s) == multiset{s[0]} + multiset(s[1..])
  {
    assert s == [s[0]] + s[1..];
  }

  /** Sorting neither adds nor drops products. */
  lemma OrderByNameMembers(s: seq<Product>)
    ensures forall i :: 0 <= i < |OrderByName(s)| ==> OrderByName(s)[i] in s
    ensures forall i :: 0 <= i < |s| ==> s[i] in OrderByName(s)
  {
    var r := OrderByName(s);
    forall i | 0 <= i < |r| ensures r[i] in s {
      assert r[i] in multiset(r);
    }
    forall i | 0 <= i < |s| ensures s[i] in r {
      assert s[i] in multiset(s);
    }
  }

  lemma InsertBeforeAll(x: Product, t: seq<Product>)
    requires forall k :: 0 <= k < |t| ==> Text.LessEq(x.name, t[k].name)
    ensures Insert(x, t) == [x] + t
  {
  }

  lemma {:induction false} FilterInsert(x: Product, t: seq<Product>, keep: Product -> bool)
    requires SortedByName(t)
    ensures Filter(Insert(x, t), keep) == if keep(x) then Insert(x, Filter(t, keep)) else Filter(t, keep)
    decreases |t|
  {
    if t == [] {
      assert Insert(x, t) == [x];
      assert [x][1..] == [];
    } else if Text.LessEq(x.name, t[0].name) {
      assert ([x] + t)[1..] == t;
      if keep(x) {
        var f := Filter(t, keep);
        forall k | 0 <= k < |f|
          ensures Text.LessEq(x.name, f[k].name)
        {
          var j :| 0 <= j < |t| && t[j] == f[k];
          if j > 0 {
            Text.LessEqTransitive(x.name, t[0].name, t[j].name);
          }
        }
        InsertBeforeAll(x, f);
      }
    } else {
      var u := Insert(x, t[1..]);
      FilterInsert(x, t[1..], keep);
      assert ([t[0]] + u)[1..] == u;
      if keep(x) && keep(t[0]) {
        var f := Filter(t[1..], keep);
        assert ([t[0]] + f)[1..] == f;
      }
    }
  }

  /** Sorting commutes with filtering: sorting the kept products gives the
      sorted listing with the others removed. */
  lemma {:induction false} OrderByNameFilter(s: seq<Product>, keep: Product -> bool)
    ensures Filter(OrderByName(s), keep) == OrderByName(Filter(s, keep))
    decreases |s|
  {
    if s != [] {
      var t := OrderByName(s[1..]);
      OrderByNameFilter(s[1..], keep);
      FilterInsert(s[0], t, keep);
      if keep(s[0]) {
        var f := Filter(s[1..], keep);
        assert ([s[0]] + f)[1..] == f;
      }
    }
  }
}

=== FILE: product_controller.dfy ===
/**
 * The product controller: the gate on each action and the mapping from the
 * service's outcome to the HTTP answer. Every action answers 400 for any
 * exception.
 */
module ProductController {
  import opened Models
  import opened Authorization
  import opened Http
  import opened Wrappers
  import ProductService

  datatype Action = GetAllProducts | GetProduct | SearchProducts | CreateProduct | UpdateProduct | DeleteProduct

  /** Reads are open; writes need the `Admin` role. */
  function Gate(a: Action): (p: Policy)
    ensures a.GetAllProducts? || a.GetProduct? || a.SearchProducts? <==> p == AllowAnonymous
    ensures a.CreateProduct? || a.UpdateProduct? || a.DeleteProduct? <==> p == RequireRole("Admin")
  {
    match a
    case GetAllProducts => AllowAnonymous
    case GetProduct => AllowAnonymous
    case SearchProducts => AllowAnonymous
    case CreateProduct => RequireRole("Admin")
    case UpdateProduct => RequireRole("Admin")
    case DeleteProduct => RequireRole("Admin")
  }

  /** The `q` query parameter: absent means the empty string. */
  function SearchQuery(q: Option<string>): (term: string)
    ensures q.None? ==> term == ""
    ensures q.Some? ==> term == q.value
  {
    q.GetOr("")
  }

  /** `GetAllProducts` and `SearchProducts`: the list is 200, an exception
      400. */
  function ListAnswer(o: Outcome<seq<ProductService.ProductResponse>>, what: string): (r: Response)
    ensures r.status == StatusOk <==> o.Returned?
    ensures r.status == StatusBadRequest <==> o.Threw?
    ensures r.status == StatusOk ==> r.body == Products(o.value)
  {
    match o
    case Returned(ps) => Response(StatusOk, Products(ps))
    case Threw(e) => Response(StatusBadRequest, Message("Error " + what + " products: " + e.message))
  }

  /** `GetProduct` and `UpdateProduct`: null is 404 with the framework's
      problem details, a result 200, an exception 400. */
  function OneAnswer(o: Outcome<Option<ProductService.ProductResponse>>, what: string): (r: Response)
    ensures r.status == StatusOk <==> o.Returned? && o.value.Some?
    ensures r.status == StatusNotFound <==> o == Returned(None)
    ensures r.status == StatusBadRequest <==> o.Threw?
    ensures r.status == StatusOk ==> r.body == OneProduct(o.value.value)
    ensures r.status == StatusNotFound ==> r.body == Problem(StatusNotFound)
  {
    match o
    case Returned(None) => StatusProblem(StatusNotFound)
    case Returned(Some(p)) => Response(StatusOk, OneProduct(p))
    case Threw(e) => Response(StatusBadRequest, Message("Error " + what + " product: " + e.message))
  }

  /** `CreateProduct`: the created product is 201, an exception 400. */
  function CreateAnswer(o: Outcome<ProductService.ProductResponse>): (r: Response)
    ensures r.status == StatusCreated <==> o.Returned?
    ensures r.status == StatusBadRequest <==> o.Threw?
    ensures r.status == StatusCreated ==> r.body == OneProduct(o.value)
  {
    match o
    case Returned(p) => Response(StatusCreated, OneProduct(p))
    case Threw(e) => Response(StatusBadRequest, Message("Error creating product: " + e.message))
  }

  /** `DeleteProduct`: true is 204 with no body, false 404 with the
      framework's problem details, an exception 400. */
  function DeleteAnswer(o: Outcome<bool>): (r: Response)
    ensures r.status == StatusNoContent <==> o == Returned(true)
    ensures r.status == StatusNotFound <==> o == Returned(false)
    ensures r.status == StatusBadRequest <==> o.Threw?
    ensures r.body.NoBody? <==> o == Returned(true)
    ensures r.status == StatusNotFound ==> r.body == Problem(StatusNotFound)
  {
    match o
    case Returned(true) => Response(StatusNoContent, NoBody)
    case Returned(false) => StatusProblem(StatusNotFound)
    case Threw(e) => Response(StatusBadRequest, Message("Error deleting product: " + e.message))
  }
}

=== FILE: product_list_view.dfy ===
/**
 * The product list page of the client: loading the catalogue, searching it
 * on the server with a local fallback, and replacing images that fail to
 * load. The two copies of the page share this logic. Each HTTP call's
 * reply, and the random number the image fallback draws, are parameters.
 */
module ProductListView {
  import opened Wrappers
  import opened Seqs
  import Models
  import Text
  import ProductRepository
  import ProductService
  import AuthSession

  type Item = ProductService.ProductResponse

  datatype ViewState = ViewState(
    products: seq<Item>,
    filteredProducts: seq<Item>,
    searchTerm: string,
    isLoading: bool,
    errorMessage: string)

  /** The page before its first load. */
  const Initial := ViewState([], [], "", true, "")

  const LoadFailedMessage := "Failed to load products. Please try again."

  /** `loadProducts` up to the request: loading, no error shown. */
  function BeginLoad(v: ViewState): (r: ViewState)
    ensures r.isLoading && r.errorMessage == ""
    ensures r.products == v.products && r.filteredProducts == v.filteredProducts && r.searchTerm == v.searchTerm
  {
    v.(isLoading := true, errorMessage := "")
  }

  /** `loadProducts` through its reply: a list replaces both lists; a
      failure shows the message and keeps the lists. Either way loading
      ends. */
  function LoadProducts(v: ViewState, reply: Result<seq<Item>, AuthSession.HttpFailure>): (r: ViewState)
    ensures !r.isLoading && r.searchTerm == v.searchTerm
    ensures reply.Ok? ==> r.products == reply.value && r.filteredProducts == reply.value && r.errorMessage == ""
    ensures reply.Err? ==>
      && r.errorMessage == LoadFailedMessage && r.errorMessage != ""
      && r.products == v.products && r.filteredProducts == v.filteredProducts
  {
    var w := BeginLoad(v);
    match reply
    case Ok(ps) => w.(products := ps, filteredProducts := ps, isLoading := false)
    case Err(_) => w.(errorMessage := LoadFailedMessage, isLoading := false)
  }

  /** `ngOnInit` on the fresh page: a list fills both lists with no error
      shown; a failure shows the message over two empty lists. Either way
      loading has ended and no term is entered. */
  lemma FirstLoad(reply: Result<seq<Item>, AuthSession.HttpFailure>)
    ensures !LoadProducts(Initial, reply).isLoading && LoadProducts(Initial, reply).searchTerm == ""
    ensures reply.Ok? ==>
      LoadProducts(Initial, reply) == ViewState(reply.value, reply.value, "", false, "")
    ensures reply.Err? ==>
      LoadProducts(Initial, reply) == ViewState([], [], "", false, LoadFailedMessage)
  {
  }

  /** Loading twice with the same reply shows what loading once does, and a
      list that arrives replaces whatever an earlier load left. */
  lemma ReloadIdempotent(v: ViewState, reply: Result<seq<Item>, AuthSession.HttpFailure>, ps: seq<Item>)
    ensures LoadProducts(LoadProducts(v, reply), reply) == LoadProducts(v, reply)
    ensures LoadProducts(LoadProducts(v, reply), Ok(ps)) == LoadProducts(v, Ok(ps))
  {
  }

  /** The local search condition: the lower-cased name or description
      contains the lower-cased term, which is not trimmed. */
  predicate ClientMatches(p: Item, term: string) {
    || Text.Contains(Text.Lower(p.name), Text.Lower(term))
    || Text.Contains(Text.Lower(p.description), Text.Lower(term))
  }

  function ClientMatchesTerm(term: string): Item -> bool {
    (p: Item) => ClientMatches(p, term)
  }

  /** The fallback used when the server search fails: the loaded products
      that match, in their loaded order. */
  function Fallback(products: seq<Item>, term: string): (r: seq<Item>)
    ensures IsSubsequence(r, products)
    ensures forall i :: 0 <= i < |r| ==> r[i] in products && ClientMatches(r[i], term)
    ensures forall i :: 0 <= i < |products| && ClientMatches(products[i], term) ==> products[i] in r
  {
    FilterIsSubsequence(products, ClientMatchesTerm(term));
    Filter(products, ClientMatchesTerm(term))
  }

  /** `onSearch`: a term that trims to nothing shows the loaded list
      without asking the server; otherwise the server is asked with the
      untrimmed term and its answer is shown, or on failure the local
      fallback. `server` is the reply the search call would get. */
  function OnSearch(v: ViewState, server: string -> Result<seq<Item>, AuthSession.HttpFailure>): (r: ViewState)
    ensures r == v.(filteredProducts := r.filteredProducts)
    ensures Text.JsTrim(v.searchTerm) == [] ==> r.filteredProducts == v.products
    ensures Text.JsTrim(v.searchTerm) != [] && server(v.searchTerm).Ok? ==> r.filteredProducts == server(v.searchTerm).value
    ensures Text.JsTrim(v.searchTerm) != [] && server(v.searchTerm).Err? ==>
      r.filteredProducts == Filter(v.products, ClientMatchesTerm(v.searchTerm))
  {
    if Text.JsTrim(v.searchTerm) == [] then v.(filteredProducts := v.products)
    else match server(v.searchTerm)
      case Ok(ps) => v.(filteredProducts := ps)
      case Err(_) => v.(filteredProducts := Fallback(v.products, v.searchTerm))
  }

  /** Filtering responses is filtering products, then mapping. */
  lemma {:induction false} FilterMapResponses(ps: seq<Models.Product>, term: string)
    ensures Filter(ProductService.MapResponses(ps), ClientMatchesTerm(term)) ==
            ProductService.MapResponses(Filter(ps, ProductRepository.MatchesTerm(term)))
    decreases |ps|
  {
    if ps != [] {
      var keep, shown := ProductRepository.MatchesTerm(term), ClientMatchesTerm(term);
      var f := Filter(ps[1..], keep);
      FilterMapResponses(ps[1..], term);
      MapResponsesCons(ps);
      assert shown(ProductService.ToResponse(ps[0])) == keep(ps[0]);
      if keep(ps[0]) {
        MapResponsesCons([ps[0]] + f);
        assert ([ps[0]] + f)[1..] == f;
      }
    }
  }

  lemma MapResponsesCons(ps: seq<Models.Product>)
    requires ps != []
    ensures ProductService.MapResponses(ps) ==
      [ProductService.ToResponse(ps[0])] + ProductService.MapResponses(ps[1..])
  {
  }

  /** On a list freshly loaded from the server, the fallback gives the
      same answer the server's search would have given for a term the
      server does not consider blank: the fallback only matters when the
      call fails, never because the two filters differ. */
  lemma FallbackAgreesWithServer(s: ProductRepository.Store, term: string)
    requires !Text.IsNullOrWhiteSpace(Some(term))
    ensures Fallback(ProductService.GetAllProducts(s), term) == ProductService.SearchProducts(s, Some(term))
  {
    ProductRepository.SearchFiltersListing(s, Some(term));
    FilterMapResponses(ProductRepository.GetAll(s), term);
  }

  /** The two notions of a blank term differ: U+0085 is not trimmed by the
      client, so it is sent, but the server counts it as white space and
      answers with the whole listing. */
  lemma BlankTermsDiffer()
    ensures Text.JsTrim("\U{0085}") != []
    ensures Text.IsNullOrWhiteSpace(Some("\U{0085}"))
    ensures Text.JsTrim("\U{FEFF}") == []
    ensures !Text.IsNullOrWhiteSpace(Some("\U{FEFF}"))
  {
    Text.JsTrimEmptyIff("\U{0085}");
    Text.JsTrimEmptyIff("\U{FEFF}");
  }

  // ---------------------------------------------------------------------
  // Broken images

  /** The grey "No Image" placeholder, an SVG embedded as a data URI. */
  const NoImage := "data:image/svg+xml;base64,PHN2ZyB3aWR0aD0iMzAwIiBoZWlnaHQ9IjIwMCIgdmlld0JveD0iMCAwIDMwMCAyMDAiIGZpbGw9Im5vbmUiIHhtbG5zPSJodHRwOi8vd3d3LnczLm9yZy8yMDAwL3N2ZyI+CjxyZWN0IHdpZHRoPSIzMDAiIGhlaWdodD0iMjAwIiBmaWxsPSIjRjFGMUYxIi8+CjxyZWN0IHg9IjEyNSIgeT0iNzUiIHdpZHRoPSI1MCIgaGVpZ2h0PSI1MCIgZmlsbD0iI0Q5RDlEOSIvPgo8dGV4dCB4PSIxNTAiIHk9IjEyNSIgZm9udC1mYW1pbHk9IkFyaWFsLCBzYW5zLXNlcmlmIiBmb250LXNpemU9IjEyIiBmaWxsPSIjOTk5OTk5IiB0ZXh0LWFuY2hvcj0ibWlkZGxlIj5ObyBJbWFnZTwvdGV4dD4KPC9zdmc+"

  /** `onImageError`: an image from the placeholder host is replaced by the
      embedded SVG; any other image by a random placeholder, `n` standing
      for `Math.floor(Math.random() * 1000)`. */
  function OnImageError(src: string, n: nat): (r: string)
    requires n < 1000
    ensures Text.Contains(src, Models.PicsumHost) ==> r == NoImage
    ensures !Text.Contains(src, Models.PicsumHost) ==>
      && |r| > |Models.PicsumPrefix| && r[..|Models.PicsumPrefix|] == Models.PicsumPrefix
      && Text.IsNumeral(r[|Models.PicsumPrefix|..])
      && Text.DecimalValue(r[|Models.PicsumPrefix|..]) == n
      && Text.Contains(r, Models.PicsumHost)
  {
    if Text.Contains(src, Models.PicsumHost) then NoImage
    else
      var r := Models.PicsumPrefix + Text.DecimalString(n);
      Text.DecimalRoundTrip(n);
      assert r[|Models.PicsumPrefix|..] == Text.DecimalString(n);
      assert r == "https://" + Models.PicsumHost + ("/300/200?random=" + Text.DecimalString(n));
      assert r[8..8 + |Models.PicsumHost|] == Models.PicsumHost;
      assert Text.OccursAt(r, Models.PicsumHost, 8);
      Text.ContainsIffOccurs(r, Models.PicsumHost);
      r
  }

  /** An image that is not from the placeholder host shows the SVG after
      at most two failures. */
  lemma SecondErrorShowsPlaceholder(src: string, n: nat, m: nat)
    requires n < 1000 && m < 1000
    requires !Text.Contains(src, Models.PicsumHost)
    ensures OnImageError(OnImageError(src, n), m) == NoImage
  {
  }
}

=== FILE: product_repository.dfy ===
/**
 * The product table and the repository's queries and writes over it. The
 * table is a sequence in insertion order; `Id` is its key.
 */
module ProductRepository {
  import opened Wrappers
  import opened Models
  import opened Seqs
  import opened NameOrder
  import Text

  type Store = seq<Product>

  function Key(p: Product): int {
    p.id
  }

  predicate IsActive(p: Product) {
    p.isActive
  }

  /** The search condition on one product: the lower-cased name or the
      lower-cased description contains the lower-cased term. */
  predicate Matches(p: Product, term: string) {
    || Text.Contains(Text.Lower(p.name), Text.Lower(term))
    || Text.Contains(Text.Lower(p.description), Text.Lower(term))
  }

  function MatchesTerm(term: string): Product -> bool {
    (p: Product) => Matches(p, term)
  }

  function ActiveAndMatching(term: string): Product -> bool {
    (p: Product) => p.isActive && Matches(p, term)
  }

  /** `GetByIdAsync`: the first product with this id that is active. */
  function GetById(s: Store, id: int): (r: Option<Product>)
    ensures r.Some? <==> exists i :: 0 <= i < |s| && s[i].id == id && s[i].isActive
    ensures r.Some? ==> r.value in s && r.value.id == id && r.value.isActive
    decreases |s|
  {
    if s == [] then None
    else if s[0].id == id && s[0].isActive then Some(s[0])
    else
      assert forall i :: 0 < i < |s| ==> s[i] == s[1..][i - 1];
      GetById(s[1..], id)
  }

  /** `FindAsync`: the product with this key, active or not. With distinct
      keys it differs from `GetById` only in also finding deleted products. */
  function Find(s: Store, id: int): (r: Option<Product>)
    ensures r.Some? <==> HasKey(s, Key, id)
    ensures r.Some? ==> r.value in s && r.value.id == id
    ensures UniqueKeys(s, Key) ==> (GetById(s, id).Some? <==> r.Some? && r.value.isActive)
  {
    FindKeyUnique(s, Key, id);
    FindKey(s, Key, id)
  }

  /** `GetAllAsync`: the active products, sorted by name. */
  function GetAll(s: Store): (r: seq<Product>)
    ensures SortedByName(r)
    ensures multiset(r) == multiset(Filter(s, IsActive))
    ensures forall i :: 0 <= i < |r| ==> r[i] in s && r[i].isActive
    ensures forall i :: 0 <= i < |s| && s[i].isActive ==> s[i] in r
  {
    var f := Filter(s, IsActive);
    OrderByNameMembers(f);
    OrderByName(f)
  }

  /** `SearchAsync`: a blank term lists everything; otherwise the active
      products matching the term, sorted by name. */
  function Search(s: Store, term: Option<string>): (r: seq<Product>)
    ensures Text.IsNullOrWhiteSpace(term) ==> r == GetAll(s)
    ensures !Text.IsNullOrWhiteSpace(term) ==>
      && SortedByName(r)
      && multiset(r) == multiset(Filter(s, ActiveAndMatching(term.value)))
      && (forall i :: 0 <= i < |r| ==> r[i] in s && r[i].isActive && Matches(r[i], term.value))
      && (forall i :: 0 <= i < |s| && s[i].isActive && Matches(s[i], term.value) ==> s[i] in r)
  {
    if Text.IsNullOrWhiteSpace(term) then GetAll(s)
    else
      var f := Filter(s, ActiveAndMatching(term.value));
      OrderByNameMembers(f);
      OrderByName(f)
  }

  /** A non-blank search has one entry per matching active product. */
  lemma SearchCount(s: Store, term: Option<string>)
    ensures !Text.IsNullOrWhiteSpace(term) ==> |Search(s, term)| == |Filter(s, ActiveAndMatching(term.value))|
  {
    if !Text.IsNullOrWhiteSpace(term) {
      assert |multiset(Search(s, term))| == |multiset(Filter(s, ActiveAndMatching(term.value)))|;
    }
  }

  /** A non-blank search is the listing with the non-matching products
      removed: same order, and a subsequence of the listing. */
  lemma SearchFiltersListing(s: Store, term: Option<string>)
    requires !Text.IsNullOrWhiteSpace(term)
    ensures Search(s, term) == Filter(GetAll(s), MatchesTerm(term.value))
    ensures IsSubsequence(Search(s, term), GetAll(s))
  {
    var t := term.value;
    OrderByNameFilter(Filter(s, IsActive), MatchesTerm(t));
    FilterFilter(s, IsActive, MatchesTerm(t), ActiveAndMatching(t));
    FilterIsSubsequence(GetAll(s), MatchesTerm(t));
  }

  /** `CreateAsync`: adds the product. A zero id is replaced by a generated
      key; an id already present makes the write fail. */
  function Create(s: Store, p: Product): (r: Result<(Store, Product), Exn>)
    ensures r.Err? <==> p.id != 0 && HasKey(s, Key, p.id)
    ensures r.Ok? ==> r.value.0 == s + [r.value.1]
    ensures r.Ok? ==> !HasKey(s, Key, r.value.1.id) && r.value.1.id != 0
    ensures r.Ok? ==> r.value.1 == p.(id := r.value.1.id)
    ensures r.Ok? && p.id != 0 ==> r.value.1 == p
    ensures r.Ok? && UniqueKeys(s, Key) ==> UniqueKeys(r.value.0, Key)
  {
    var q := if p.id == 0 then p.(id := NextKey(s, Key)) else p;
    if HasKey(s, Key, q.id) then Err(Failure("duplicate key"))
    else
      AppendFreshKey(s, Key, q);
      Ok((s + [q], q))
  }

  /** `UpdateAsync`: writes the product over the stored one with the same
      key; with no such row the write fails. */
  function Update(s: Store, p: Product): (r: Result<Store, Exn>)
    ensures r.Ok? <==> HasKey(s, Key, p.id)
    ensures r.Ok? ==> |r.value| == |s| && p in r.value
    ensures r.Ok? ==> forall i :: 0 <= i < |s| && s[i].id != p.id ==> r.value[i] == s[i]
    ensures r.Ok? && UniqueKeys(s, Key) ==>
      UniqueKeys(r.value, Key) && forall i :: 0 <= i < |s| && s[i].id == p.id ==> r.value[i] == p
  {
    var k := IndexOfKey(s, Key, p.id);
    if k < 0 then Err(DbUpdateConcurrency("no row with this key"))
    else
      ReplaceSameKey(s, Key, k, p);
      assert s[k := p][k] == p;
      Ok(s[k := p])
  }

  /** `DeleteAsync`: a soft delete. Any stored product with the key, even one
      already deleted, has its flag cleared and the call answers true. */
  function Delete(s: Store, id: int): (r: (Store, bool))
    ensures r.1 <==> HasKey(s, Key, id)
    ensures !r.1 ==> r.0 == s
    ensures |r.0| == |s|
    ensures forall i :: 0 <= i < |s| && s[i].id != id ==> r.0[i] == s[i]
    ensures forall i :: 0 <= i < |s| ==> r.0[i] == s[i] || r.0[i] == s[i].(isActive := false)
    ensures UniqueKeys(s, Key) ==> UniqueKeys(r.0, Key) && GetById(r.0, id).None?
  {
    var k := IndexOfKey(s, Key, id);
    if k < 0 then (s, false)
    else
      var s' := s[k := s[k].(isActive := false)];
      ReplaceSameKey(s, Key, k, s[k].(isActive := false));
      (s', true)
  }

  /** Deleting twice leaves the same table as deleting once, and both calls
      answer the same. */
  lemma DeleteIdempotent(s: Store, id: int)
    ensures Delete(Delete(s, id).0, id) == Delete(s, id)
  {
    var k := IndexOfKey(s, Key, id);
    if k >= 0 {
      var s' := Delete(s, id).0;
      var k' := IndexOfKey(s', Key, id);
      assert s'[k].id == id;
      assert forall i :: 0 <= i < k ==> s'[i] == s[i];
      assert k' == k;
      assert s'[k := s'[k].(isActive := false)] == s';
    }
  }
}

=== FILE: product_service.dfy ===
/**
 * The product service: the request and response shapes and the operations
 * that translate between them and the repository.
 */
module ProductService {
  import opened Wrappers
  import opened Models
  import opened Seqs
  import opened NameOrder
  import Text
  import Repo = ProductRepository

  /** The body of a create or update call. */
  datatype CreateProductRequest = CreateProductRequest(
    name: string,
    price: Price,
    description: string,
    imageUrl: string)

  /** What the service hands out: a product without its active flag. */
  datatype ProductResponse = ProductResponse(
    id: int,
    name: string,
    price: Price,
    description: string,
    imageUrl: string,
    createdAt: Instant)

  /** `MapToProductResponse`: every field but the active flag. */
  function ToResponse(p: Product): (r: ProductResponse)
    ensures r.id == p.id && r.name == p.name && r.price == p.price
    ensures r.description == p.description && r.imageUrl == p.imageUrl && r.createdAt == p.createdAt
  {
    ProductResponse(p.id, p.name, p.price, p.description, p.imageUrl, p.createdAt)
  }

  /** Two products give the same response exactly when they differ at most
      in the active flag: the response carries every other field and never
      the flag. */
  lemma ResponseHidesOnlyActiveFlag(p: Product, q: Product)
    ensures ToResponse(p) == ToResponse(q) <==> p.(isActive := q.isActive) == q
  {
  }

  function MapResponses(ps: seq<Product>): seq<ProductResponse> {
    seq(|ps|, i requires 0 <= i < |ps| => ToResponse(ps[i]))
  }

  lemma MapResponsesMembers(ps: seq<Product>)
    ensures forall x :: x in ps ==> ToResponse(x) in MapResponses(ps)
  {
    forall x | x in ps
      ensures ToResponse(x) in MapResponses(ps)
    {
      var j :| 0 <= j < |ps| && ps[j] == x;
      assert MapResponses(ps)[j] == ToResponse(x);
    }
  }

  /** The products a caller can see, as responses. */
  ghost predicate ShowsActive(s: Repo.Store, r: ProductResponse) {
    exists p :: p in s && p.isActive && ToResponse(p) == r
  }

  /** `GetProductByIdAsync`: the response of the active product with this
      id, or null. */
  function GetProductById(s: Repo.Store, id: int): (r: Option<ProductResponse>)
    ensures r.Some? <==> exists i :: 0 <= i < |s| && s[i].id == id && s[i].isActive
    ensures r.Some? ==> r.value.id == id && ShowsActive(s, r.value)
  {
    match Repo.GetById(s, id)
    case None => None
    case Some(p) => Some(ToResponse(p))
  }

  /** `GetAllProductsAsync`: every active product, by name. */
  function GetAllProducts(s: Repo.Store): (r: seq<ProductResponse>)
    ensures forall i, j {:trigger Text.LessEq(r[i].name, r[j].name)} :: 0 <= i < j < |r| ==> Text.LessEq(r[i].name, r[j].name)
    ensures forall i :: 0 <= i < |r| ==> ShowsActive(s, r[i])
    ensures forall i :: 0 <= i < |s| && s[i].isActive ==> ToResponse(s[i]) in r
    ensures |r| == |Filter(s, Repo.IsActive)|
  {
    var ps := Repo.GetAll(s);
    assert |ps| == |Filter(s, Repo.IsActive)| by {
      assert |multiset(ps)| == |multiset(Filter(s, Repo.IsActive))|;
    }
    MapResponsesMembers(ps);
    MapResponses(ps)
  }

  /** `SearchProductsAsync`: a blank term answers as the listing does;
      otherwise the matching active products, by name. */
  function SearchProducts(s: Repo.Store, term: Option<string>): (r: seq<ProductResponse>)
    ensures Text.IsNullOrWhiteSpace(term) ==> r == GetAllProducts(s)
    ensures !Text.IsNullOrWhiteSpace(term) ==>
      && (forall i, j {:trigger Text.LessEq(r[i].name, r[j].name)} :: 0 <= i < j < |r| ==> Text.LessEq(r[i].name, r[j].name))
      && (forall i :: 0 <= i < |r| ==>
            exists p :: p in s && p.isActive && Repo.Matches(p, term.value) && ToResponse(p) == r[i])
      && (forall i :: 0 <= i < |s| && s[i].isActive && Repo.Matches(s[i], term.value) ==> ToResponse(s[i]) in r)
      && |r| == |Filter(s, Repo.ActiveAndMatching(term.value))|
  {
    var ps := Repo.Search(s, term);
    Repo.SearchCount(s, term);
    MapResponsesMembers(ps);
    MapResponses(ps)
  }

  /** The product a create request describes: the four fields copied, the
      clock's time, active, and a zero id for the store to replace. */
  function FromRequest(req: CreateProductRequest, now: Instant): Product {
    NewProduct(now).(
      name := req.name,
      price := req.price,
      description := req.description,
      imageUrl := req.imageUrl,
      createdAt := now,
      isActive := true)
  }

  /** `CreateProductAsync`: always succeeds, appending one active product
      with a fresh key built from the request. */
  function CreateProduct(s: Repo.Store, req: CreateProductRequest, now: Instant): (r: Step<Repo.Store, ProductResponse>)
    ensures r.outcome.Returned?
    ensures |r.store| == |s| + 1 && r.store[..|s|] == s
    ensures var p := r.store[|s|];
      && p.name == req.name && p.price == req.price
      && p.description == req.description && p.imageUrl == req.imageUrl
      && p.createdAt == now && p.isActive
      && !HasKey(s, Repo.Key, p.id)
      && r.outcome.value == ToResponse(p)
    ensures UniqueKeys(s, Repo.Key) ==> UniqueKeys(r.store, Repo.Key)
  {
    match Repo.Create(s, FromRequest(req, now))
    case Ok(created) =>
      assert created.0[..|s|] == s;
      Step(created.0, Returned(ToResponse(created.1)))
    case Err(e) => Step(s, Threw(e))
  }

  /** The stored product after an update: the four request fields
      overwritten, everything else kept. */
  function Overwrite(p: Product, req: CreateProductRequest): Product {
    p.(name := req.name, price := req.price, description := req.description, imageUrl := req.imageUrl)
  }

  /** `UpdateProductAsync`: null, with no write, when the id is not visible;
      otherwise the visible product's four request fields are overwritten
      and nothing else in the table changes. */
  function UpdateProduct(s: Repo.Store, id: int, req: CreateProductRequest): (r: Step<Repo.Store, Option<ProductResponse>>)
    ensures r.outcome.Returned?
    ensures r.outcome.value.None? <==> !exists i :: 0 <= i < |s| && s[i].id == id && s[i].isActive
    ensures r.outcome.value.None? ==> r.store == s
    ensures |r.store| == |s|
    ensures forall i :: 0 <= i < |s| && s[i].id != id ==> r.store[i] == s[i]
    ensures UniqueKeys(s, Repo.Key) && r.outcome.value.Some? ==>
      && UniqueKeys(r.store, Repo.Key)
      && forall i :: 0 <= i < |s| && s[i].id == id ==>
           && r.store[i] == Overwrite(s[i], req)
           && r.outcome.value.value == ToResponse(r.store[i])
  {
    match Repo.GetById(s, id)
    case None => Step(s, Returned(None))
    case Some(p) =>
      var q := Overwrite(p, req);
      match Repo.Update(s, q)
      case Ok(s') =>
        assert forall i :: 0 <= i < |s| && s[i].id == id && UniqueKeys(s, Repo.Key) ==> s[i] == p;
        Step(s', Returned(Some(ToResponse(q))))
      case Err(e) => Step(s, Threw(e))
  }

  /** `DeleteProductAsync`: the repository's soft delete; it answers true
      for any stored id, already deleted or not. */
  function DeleteProduct(s: Repo.Store, id: int): (r: Step<Repo.Store, bool>)
    ensures r.outcome == Returned(HasKey(s, Repo.Key, id))
    ensures |r.store| == |s|
    ensures forall i :: 0 <= i < |s| && s[i].id != id ==> r.store[i] == s[i]
    ensures forall i :: 0 <= i < |s| ==> r.store[i] == s[i] || r.store[i] == s[i].(isActive := false)
    ensures UniqueKeys(s, Repo.Key) ==> UniqueKeys(r.store, Repo.Key) && GetProductById(r.store, id).None?
  {
    var d := Repo.Delete(s, id);
    Step(d.0, Returned(d.1))
  }

  /** An update followed by a read of the same id returns what the update
      returned. */
  lemma UpdateThenGet(s: Repo.Store, id: int, req: CreateProductRequest)
    requires UniqueKeys(s, Repo.Key)
    requires UpdateProduct(s, id, req).outcome.value.Some?
    ensures GetProductById(UpdateProduct(s, id, req).store, id) == UpdateProduct(s, id, req).outcome.value
  {
    var r := UpdateProduct(s, id, req);
    var i :| 0 <= i < |s| && s[i].id == id && s[i].isActive;
    UniqueKeyIndex(r.store, Repo.Key, id, i);
    var g := Repo.GetById(r.store, id);
    assert g.Some?;
    assert g.value == r.store[i] by {
      var j :| 0 <= j < |r.store| && r.store[j] == g.value;
      assert r.store[j].id == r.store[i].id;
    }
  }

  /** After a soft delete the product is gone for readers and writers, yet a
      second delete of the same id still answers true. */
  lemma DeletedProductAsymmetry(s: Repo.Store, id: int, req: CreateProductRequest)
    requires UniqueKeys(s, Repo.Key) && HasKey(s, Repo.Key, id)
    ensures var s' := DeleteProduct(s, id).store;
      && GetProductById(s', id).None?
      && UpdateProduct(s', id, req) == Step(s', Returned(None))
      && DeleteProduct(s', id).outcome == Returned(true)
  {
    var s' := DeleteProduct(s, id).store;
    var i :| 0 <= i < |s| && s[i].id == id;
    assert s'[i].id == id;
  }
}

=== FILE: scenarios.dfy ===
/**
 * End-to-end runs of the backend from the seeded state: a visitor
 * registers, logs in, and is kept out of the administrator's listing. The
 * runs never look at the product table, so they are proved for any table
 * next to the seeded administrator, the seeded catalogue included.
 */
module Scenarios {
  import opened Wrappers
  import opened Models
  import opened Authorization
  import opened Http
  import Text
  import ProductRepository
  import UserRepository
  import UserService
  import Backend
  import Seed

  const Visitor := UserService.RegisterRequest("a@x.com", "pw1")

  /** The seeded administrator next to the product table `p`. */
  function Start(c: UserService.Crypto, now: Instant, p: ProductRepository.Store): Backend.State {
    Backend.State([Seed.Admin(c, now)], p)
  }

  /** The seed is such a start. */
  lemma SeedIsStart(c: UserService.Crypto, now: Instant)
    ensures Seed.InitialState(c, now) == Start(c, now, Seed.InitialState(c, now).products)
  {
  }

  /** The state after the visitor registered. */
  function Registered(c: UserService.Crypto, now: Instant, later: Instant, p: ProductRepository.Store): (st: Backend.State)
    ensures st.products == p
    ensures |st.users| == 2 && st.users[0] == Seed.Admin(c, now)
    ensures st.users[1].email == Visitor.email && st.users[1].role == Customer && st.users[1].id == 2
  {
    RegistrationIsFresh(c, now);
    Backend.Handle(Start(c, now, p), Backend.Env(c, later), Anonymous, Backend.Register(Visitor)).0
  }

  /** The state after the visitor registered on a freshly seeded backend. */
  function AfterRegistration(c: UserService.Crypto, now: Instant, later: Instant): (st: Backend.State)
    ensures st.products == Seed.InitialState(c, now).products
    ensures |st.users| == 2 && st.users[0] == Seed.Admin(c, now)
    ensures st.users[1].email == Visitor.email && st.users[1].role == Customer && st.users[1].id == 2
  {
    Registered(c, now, later, Seed.InitialState(c, now).products)
  }

  /** The visitor's e-mail differs from the administrator's in every
      letter case, so the registration is accepted. */
  lemma RegistrationIsFresh(c: UserService.Crypto, now: Instant)
    ensures !UserRepository.EmailMatches(Seed.Admin(c, now), Visitor.email)
  {
    assert |Text.Lower(Visitor.email)| != |Text.Lower(Seed.AdminEmail)|;
  }

  /** Registration answers 200 with a customer token for the new address;
      a second registration of the same address in capitals answers 409. */
  lemma RegisterTwice(c: UserService.Crypto, now: Instant, later: Instant, p: ProductRepository.Store)
    ensures var r := Backend.Handle(Start(c, now, p), Backend.Env(c, later), Anonymous, Backend.Register(Visitor)).1;
      r.status == StatusOk && r.body.Auth? && r.body.auth.email == Visitor.email && r.body.auth.role == "Customer"
    ensures var st := Registered(c, now, later, p);
      Backend.Handle(st, Backend.Env(c, later), Anonymous, Backend.Register(UserService.RegisterRequest("A@X.COM", "other"))) ==
        (st, Response(StatusConflict, Message(UserService.DuplicateEmailMessage)))
  {
    RegistrationIsFresh(c, now);
    var st := Registered(c, now, later, p);
    assert UserRepository.EmailMatches(st.users[1], "A@X.COM");
  }

  /** The same two registrations on the seed. */
  lemma RegisterOnSeed(c: UserService.Crypto, now: Instant, later: Instant)
    ensures var r := Backend.Handle(Seed.InitialState(c, now), Backend.Env(c, later), Anonymous, Backend.Register(Visitor)).1;
      r.status == StatusOk && r.body.Auth? && r.body.auth.email == Visitor.email && r.body.auth.role == "Customer"
    ensures var st := AfterRegistration(c, now, later);
      Backend.Handle(st, Backend.Env(c, later), Anonymous, Backend.Register(UserService.RegisterRequest("A@X.COM", "other"))) ==
        (st, Response(StatusConflict, Message(UserService.DuplicateEmailMessage)))
  {
    SeedIsStart(c, now);
    RegisterTwice(c, now, later, Seed.InitialState(c, now).products);
  }

  /** The new customer can log in, but the user listing answers 403 to a
      customer's token and 401 without a token, and only 200 to the
      administrator; none of these changes the state. */
  lemma KeptOut(c: UserService.Crypto, now: Instant, later: Instant, p: ProductRepository.Store)
    requires c.verify(Visitor.password, c.hash(Visitor.password))
    ensures var st := Registered(c, now, later, p);
      var env := Backend.Env(c, later);
      && Backend.Handle(st, env, Anonymous, Backend.Login(UserService.LoginRequest(Visitor.email, Visitor.password))).1.status == StatusOk
      && Backend.Handle(st, env, Authenticated(Some("Customer")), Backend.GetAllUsers) == (st, Response(StatusForbidden, NoBody))
      && Backend.Handle(st, env, Anonymous, Backend.GetAllUsers) == (st, Response(StatusUnauthorized, NoBody))
      && Backend.Handle(st, env, Authenticated(Some("Admin")), Backend.GetAllUsers).1.status == StatusOk
      && Backend.Handle(st, env, Authenticated(Some("Admin")), Backend.GetAllUsers).1.body == Users(UserService.GetAllUsers(st.users))
      && |st.users| == 2
  {
    RegistrationIsFresh(c, now);
    UserService.RegisterThenLogin([Seed.Admin(c, now)], c, Visitor, later, Visitor.email);
  }

  /** The same on the seed. */
  lemma CustomerIsKeptOut(c: UserService.Crypto, now: Instant, later: Instant)
    requires c.verify(Visitor.password, c.hash(Visitor.password))
    ensures var st := AfterRegistration(c, now, later);
      var env := Backend.Env(c, later);
      && Backend.Handle(st, env, Anonymous, Backend.Login(UserService.LoginRequest(Visitor.email, Visitor.password))).1.status == StatusOk
      && Backend.Handle(st, env, Authenticated(Some("Customer")), Backend.GetAllUsers) == (st, Response(StatusForbidden, NoBody))
      && Backend.Handle(st, env, Anonymous, Backend.GetAllUsers) == (st, Response(StatusUnauthorized, NoBody))
      && Backend.Handle(st, env, Authenticated(Some("Admin")), Backend.GetAllUsers).1.status == StatusOk
      && Backend.Handle(st, env, Authenticated(Some("Admin")), Backend.GetAllUsers).1.body == Users(UserService.GetAllUsers(st.users))
      && |UserService.GetAllUsers(st.users)| == 2
  {
    KeptOut(c, now, later, Seed.InitialState(c, now).products);
  }
}

=== FILE: seed.dfy ===
/**
 * The data the database context seeds: one administrator and twelve
 * products, all active. The administrator's password hash and every
 * creation time come from outside (the hashing library and the clock).
 */
module Seed {
  import opened Wrappers
  import opened Models
  import opened Seqs
  import Text
  import UserRepository
  import ProductRepository
  import UserService
  import ProductService
  import Backend

  const AdminEmail := "admin@smartcart.com"
  const AdminPassword := "admin123"

  function Admin(c: UserService.Crypto, now: Instant): User {
    User(1, AdminEmail, c.hash(AdminPassword), Models.Admin, now)
  }

  function SeedProduct(id: nat, name: string, price: Price, description: string, now: Instant): Product {
    Product(id, name, price, description, PicsumPrefix + Text.DecimalString(id), now, true)
  }

  function Products(now: Instant): seq<Product> {
    [ SeedProduct(1, "iPhone 15 Pro", 999.99, "Latest iPhone with advanced features", now),
      SeedProduct(2, "Samsung Galaxy S24", 899.99, "Premium Android smartphone", now),
      SeedProduct(3, "MacBook Air M3", 1299.99, "Lightweight laptop with M3 chip", now),
      SeedProduct(4, "iPad Pro 12.9", 1099.99, "Professional tablet for creative work", now),
      SeedProduct(5, "AirPods Pro", 249.99, "Wireless earbuds with noise cancellation", now),
      SeedProduct(6, "Sony WH-1000XM5", 399.99, "Premium noise-cancelling headphones", now),
      SeedProduct(7, "Nintendo Switch", 299.99, "Portable gaming console", now),
      SeedProduct(8, "PlayStation 5", 499.99, "Next-gen gaming console", now),
      SeedProduct(9, "Apple Watch Series 9", 399.99, "Advanced smartwatch with health features", now),
      SeedProduct(10, "Dell XPS 13", 1199.99, "Compact Windows laptop", now),
      SeedProduct(11, "Samsung 4K TV 55\"", 799.99, "Smart 4K television", now),
      SeedProduct(12, "Kindle Oasis", 249.99, "Premium e-reader with warm light", now) ]
  }

  /** The state a fresh in-memory database starts in. */
  function InitialState(c: UserService.Crypto, now: Instant): (st: Backend.State)
    ensures st.users == [Admin(c, now)]
    ensures |st.products| == 12
    ensures forall i :: 0 <= i < |st.products| ==> st.products[i].id == i + 1 && st.products[i].isActive
  {
    Backend.State([Admin(c, now)], Products(now))
  }

  /** The seed satisfies the key and e-mail constraints, fits the column
      limits, and has exactly one administrator. */
  lemma SeedValid(c: UserService.Crypto, now: Instant)
    ensures Backend.Valid(InitialState(c, now))
    ensures forall p :: p in InitialState(c, now).products ==> ProductFitsSchema(p)
    ensures forall u :: u in InitialState(c, now).users ==> UserFitsSchema(u)
    ensures forall u :: u in InitialState(c, now).users ==> (u.role == Models.Admin <==> u.id == 1)
  {
    ProductsFitSchema(now);
  }

  lemma ProductsFitSchema(now: Instant)
    ensures forall p :: p in Products(now) ==> ProductFitsSchema(p)
  {
    var ps := Products(now);
    forall i | 0 <= i < |ps| ensures |ps[i].imageUrl| <= 500 {
      Text.DecimalStringLength(i + 1);
    }
  }

  /** All twelve seed products are listed. */
  lemma SeedListing(c: UserService.Crypto, now: Instant)
    ensures |ProductService.GetAllProducts(InitialState(c, now).products)| == 12
  {
    var ps := InitialState(c, now).products;
    FilterKeepsAll(ps, ProductRepository.IsActive);
  }

  /** The first product created after seeding gets key 13. */
  lemma SeedNextKey(c: UserService.Crypto, now: Instant)
    ensures NextKey(InitialState(c, now).products, ProductRepository.Key) == 13
  {
    var ps := InitialState(c, now).products;
    var n := NextKey(ps, ProductRepository.Key);
    assert ProductRepository.Key(ps[11]) == 12;
    if n != 1 {
      var i :| 0 <= i < |ps| && ProductRepository.Key(ps[i]) == n - 1;
      assert ps[i].id == i + 1;
    }
  }

  /** The seeded administrator can log in with `admin123`, under any letter
      case of the e-mail, as long as the hashing library verifies a
      password against its own hash. */
  lemma AdminLoginOnSeed(c: UserService.Crypto, now: Instant, email: string)
    requires c.verify(AdminPassword, c.hash(AdminPassword))
    requires Text.Lower(email) == Text.Lower(AdminEmail)
    ensures UserService.Login(InitialState(c, now).users, c, UserService.LoginRequest(email, AdminPassword)) ==
      Some(UserService.AuthResponse(c.generateToken(Admin(c, now)), AdminEmail, "Admin"))
  {
    var s := InitialState(c, now).users;
    assert UserRepository.EmailMatches(s[0], email);
    assert UserRepository.FirstEmailMatch(s, email, 0);
  }
}

=== FILE: seqs.dfy ===
/**
 * Sequence utilities shared by the stores and the client: order-preserving
 * filtering (LINQ `Where`, TypeScript `filter`), subsequences, and integer
 * keys with their generation.
 */
module Seqs {
  import opened Wrappers

  /** Keeps the elements satisfying `keep`, in their original order. */
  function Filter<T(==)>(s: seq<T>, keep: T -> bool): (r: seq<T>)
    ensures |r| <= |s|
    ensures forall i :: 0 <= i < |r| ==> r[i] in s && keep(r[i])
    ensures forall i :: 0 <= i < |s| && keep(s[i]) ==> s[i] in r
  {
    if s == [] then []
    else
      var rest := Filter(s[1..], keep);
      assert s == [s[0]] + s[1..];
      assert forall x :: x in s[1..] ==> x in s;
      assert forall i :: 1 <= i < |s| ==> s[i] == s[1..][i - 1];
      if keep(s[0]) then
        var r := [s[0]] + rest;
        assert forall i :: 1 <= i < |r| ==> r[i] == rest[i - 1];
        r
      else rest
  }

  /** A filter that keeps every element is the identity. */
  lemma {:induction false} FilterKeepsAll<T>(s: seq<T>, keep: T -> bool)
    requires forall i :: 0 <= i < |s| ==> keep(s[i])
    ensures Filter(s, keep) == s
  {
    if s != [] {
      FilterKeepsAll(s[1..], keep);
      assert [s[0]] + s[1..] == s;
    }
  }

  /** `a` is `b` with some elements left out, the order kept. */
  predicate IsSubsequence<T(==)>(a: seq<T>, b: seq<T>)
    decreases |b|
  {
    if a == [] then true
    else if b == [] then false
    else if a[0] == b[0] then IsSubsequence(a[1..], b[1..])
    else IsSubsequence(a, b[1..])
  }

  lemma {:induction false} FilterIsSubsequence<T>(s: seq<T>, keep: T -> bool)
    ensures IsSubsequence(Filter(s, keep), s)
    decreases |s|
  {
    if s != [] {
      FilterIsSubsequence(s[1..], keep);
      var rest := Filter(s[1..], keep);
      if keep(s[0]) {
        assert ([s[0]] + rest)[1..] == rest;
      } else if rest != [] {
        // rest[0] is kept and s[0] is not, so they differ.
        assert rest[0] != s[0];
      }
    }
  }

  /** Filtering twice is filtering once by the conjunction. */
  lemma {:induction false} FilterFilter<T>(s: seq<T>, p: T -> bool, q: T -> bool, both: T -> bool)
    requires forall x :: both(x) == (p(x) && q(x))
    ensures Filter(Filter(s, p), q) == Filter(s, both)
    decreases |s|
  {
    if s != [] {
      FilterFilter(s[1..], p, q, both);
      if p(s[0]) {
        var f := Filter(s[1..], p);
        assert ([s[0]] + f)[1..] == f;
      }
    }
  }

  /** Elements of `s` carry pairwise distinct keys. */
  predicate UniqueKeys<T>(s: seq<T>, key: T -> int) {
    forall i, j :: 0 <= i < |s| && 0 <= j < |s| && i != j ==> key(s[i]) != key(s[j])
  }

  predicate HasKey<T>(s: seq<T>, key: T -> int, k: int) {
    exists i :: 0 <= i < |s| && key(s[i]) == k
  }

  /** The first index whose element has key `k`. */
  function IndexOfKey<T>(s: seq<T>, key: T -> int, k: int): (r: int)
    ensures -1 <= r < |s|
    ensures r == -1 <==> !HasKey(s, key, k)
    ensures r >= 0 ==> key(s[r]) == k && forall i :: 0 <= i < r ==> key(s[i]) != k
    decreases |s|
  {
    if s == [] then -1
    else if key(s[0]) == k then 0
    else
      var r := IndexOfKey(s[1..], key, k);
      assert forall i :: 0 < i < |s| ==> s[i] == s[1..][i - 1];
      if r == -1 then -1 else r + 1
  }

  /** Lookup by key: the first element with key `k`, if any. */
  function FindKey<T(==)>(s: seq<T>, key: T -> int, k: int): (r: Option<T>)
    ensures r.Some? <==> HasKey(s, key, k)
    ensures r.Some? ==> r.value in s && key(r.value) == k
    ensures r.Some? ==> exists i :: 0 <= i < |s| && s[i] == r.value && forall j :: 0 <= j < i ==> key(s[j]) != k
  {
    var i := IndexOfKey(s, key, k);
    if i < 0 then None else Some(s[i])
  }

  /** With distinct keys, what lookup finds is every element with the key. */
  lemma FindKeyUnique<T>(s: seq<T>, key: T -> int, k: int)
    ensures UniqueKeys(s, key) && FindKey(s, key, k).Some? ==>
      forall i :: 0 <= i < |s| && key(s[i]) == k ==> s[i] == FindKey(s, key, k).value
  {
    if UniqueKeys(s, key) && FindKey(s, key, k).Some? {
      forall i | 0 <= i < |s| && key(s[i]) == k
        ensures s[i] == FindKey(s, key, k).value
      {
        UniqueKeyIndex(s, key, k, i);
      }
    }
  }

  /** With distinct keys, the element with key `k` sits only at its index. */
  lemma UniqueKeyIndex<T>(s: seq<T>, key: T -> int, k: int, i: int)
    requires UniqueKeys(s, key)
    requires 0 <= i < |s| && key(s[i]) == k
    ensures IndexOfKey(s, key, k) == i
  {
  }

  /** The key generator of the store: one past the largest stored key, and
      at least 1. */
  function NextKey<T>(s: seq<T>, key: T -> int): (r: int)
    ensures r >= 1
    ensures forall i :: 0 <= i < |s| ==> key(s[i]) < r
    ensures r == 1 || HasKey(s, key, r - 1)
    decreases |s|
  {
    if s == [] then 1
    else
      var n := NextKey(s[1..], key);
      assert forall i :: 0 < i < |s| ==> s[i] == s[1..][i - 1];
      if key(s[0]) < n then n else key(s[0]) + 1
  }

  /** Appending an element whose key is new keeps keys distinct. */
  lemma AppendFreshKey<T>(s: seq<T>, key: T -> int, x: T)
    requires !HasKey(s, key, key(x))
    ensures UniqueKeys(s, key) ==> UniqueKeys(s + [x], key)
  {
    var t := s + [x];
    if !UniqueKeys(s, key) { return; }
    forall i, j | 0 <= i < |t| && 0 <= j < |t| && i != j
      ensures key(t[i]) != key(t[j])
    {
      if i == |s| { assert key(s[j]) != key(x); }
      else if j == |s| { assert key(s[i]) != key(x); }
    }
  }

  /** Replacing an element by one with the same key keeps keys distinct. */
  lemma ReplaceSameKey<T>(s: seq<T>, key: T -> int, i: int, x: T)
    requires 0 <= i < |s| && key(x) == key(s[i])
    ensures UniqueKeys(s, key) ==> UniqueKeys(s[i := x], key)
  {
  }
}

=== FILE: text.dfy ===
/**
 * The string primitives the backend and the client rely on: case folding
 * (`ToLower` / `toLowerCase`), substring search (`Contains` / `includes`),
 * the two platforms' notions of white space (`string.IsNullOrWhiteSpace`
 * and `String.prototype.trim`), the order `OrderBy` sorts names in, and
 * decimal rendering of a number.
 */
module Text {
  import opened Wrappers

  // ---------------------------------------------------------------------
  // Case folding

  /** Lower-cases one character; only ASCII letters have a lower case here. */
  function LowerChar(c: char): char {
    if 'A' <= c <= 'Z' then (c as int - 'A' as int + 'a' as int) as char else c
  }

  /** `ToLower()` / `toLowerCase()`, character by character. */
  function Lower(s: string): string {
    seq(|s|, i requires 0 <= i < |s| => LowerChar(s[i]))
  }

  // ---------------------------------------------------------------------
  // Substring search

  /** `t` occurs in `s` starting at index `i`. */
  ghost predicate OccursAt(s: string, t: string, i: int) {
    0 <= i && i + |t| <= |s| && s[i..i + |t|] == t
  }

  /** `s.Contains(t)` in C# and `s.includes(t)` in TypeScript: a scan that
      tries every start position from the left. */
  predicate Contains(s: string, t: string)
    decreases |s|
  {
    if |t| > |s| then false
    else s[..|t|] == t || (s != [] && Contains(s[1..], t))
  }

  /** The scan finds `t` exactly when `t` occurs somewhere in `s`. */
  lemma {:induction false} ContainsIffOccurs(s: string, t: string)
    ensures Contains(s, t) <==> exists i :: OccursAt(s, t, i)
    decreases |s|
  {
    if |t| > |s| {
    } else if s[..|t|] == t {
      assert OccursAt(s, t, 0);
    } else if s == [] {
    } else {
      ContainsIffOccurs(s[1..], t);
      if Contains(s[1..], t) {
        var i :| OccursAt(s[1..], t, i);
        OccursShift(s, t, i + 1);
      } else {
        forall i | OccursAt(s, t, i)
          ensures false
        {
          assert i != 0;
          OccursShift(s, t, i);
        }
      }
    }
  }

  /** An occurrence past the first position is an occurrence in the tail. */
  lemma OccursShift(s: string, t: string, i: int)
    requires s != [] && 0 < i
    ensures OccursAt(s, t, i) <==> OccursAt(s[1..], t, i - 1)
  {
    if i + |t| <= |s| {
      assert s[1..][i - 1..i - 1 + |t|] == s[i..i + |t|];
    }
  }

  // ---------------------------------------------------------------------
  // White space

  /** `char.IsWhiteSpace` of .NET: the Unicode space, line and paragraph
      separators, the controls U+0009..U+000D, U+0085 and U+00A0. */
  predicate IsDotNetWhiteSpace(c: char) {
    || c == ' '
    || '\t' <= c <= '\r'
    || c == '\U{0085}'
    || c == '\U{00A0}'
    || c == '\U{1680}'
    || '\U{2000}' <= c <= '\U{200A}'
    || c == '\U{2028}'
    || c == '\U{2029}'
    || c == '\U{202F}'
    || c == '\U{205F}'
    || c == '\U{3000}'
  }

  /** The characters `String.prototype.trim` strips: ECMAScript WhiteSpace
      and LineTerminator. Unlike .NET this includes U+FEFF and excludes U+0085. */
  predicate IsJsWhiteSpace(c: char) {
    || c == ' '
    || '\t' <= c <= '\r'
    || c == '\U{00A0}'
    || c == '\U{1680}'
    || '\U{2000}' <= c <= '\U{200A}'
    || c == '\U{2028}'
    || c == '\U{2029}'
    || c == '\U{202F}'
    || c == '\U{205F}'
    || c == '\U{3000}'
    || c == '\U{FEFF}'
  }

  /** `string.IsNullOrWhiteSpace`. */
  predicate IsNullOrWhiteSpace(s: Option<string>) {
    s.None? || forall i :: 0 <= i < |s.value| ==> IsDotNetWhiteSpace(s.value[i])
  }

  predicate AllJsWhiteSpace(s: string) {
    forall i :: 0 <= i < |s| ==> IsJsWhiteSpace(s[i])
  }

  function TrimStart(s: string): string
    decreases |s|
  {
    if s != [] && IsJsWhiteSpace(s[0]) then TrimStart(s[1..]) else s
  }

  function TrimEnd(s: string): string
    decreases |s|
  {
    if s != [] && IsJsWhiteSpace(s[|s| - 1]) then TrimEnd(s[..|s| - 1]) else s
  }

  /** `s.trim()` in TypeScript. */
  function JsTrim(s: string): string {
    TrimEnd(TrimStart(s))
  }

  lemma {:induction false} TrimStartEmpty(s: string)
    ensures TrimStart(s) == [] <==> AllJsWhiteSpace(s)
    ensures TrimStart(s) != [] ==> !IsJsWhiteSpace(TrimStart(s)[0])
    decreases |s|
  {
    if s != [] && IsJsWhiteSpace(s[0]) {
      TrimStartEmpty(s[1..]);
      if AllJsWhiteSpace(s[1..]) {
        forall i | 0 <= i < |s| ensures IsJsWhiteSpace(s[i]) {
          if i > 0 { assert s[i] == s[1..][i - 1]; }
        }
      } else {
        var i :| 0 <= i < |s[1..]| && !IsJsWhiteSpace(s[1..][i]);
        assert s[i + 1] == s[1..][i];
      }
    }
  }

  lemma {:induction false} TrimEndEmpty(s: string)
    ensures TrimEnd(s) == [] <==> AllJsWhiteSpace(s)
    decreases |s|
  {
    if s != [] && IsJsWhiteSpace(s[|s| - 1]) {
      var init := s[..|s| - 1];
      TrimEndEmpty(init);
      if AllJsWhiteSpace(init) {
        forall i | 0 <= i < |s| ensures IsJsWhiteSpace(s[i]) {
          if i < |s| - 1 { assert s[i] == init[i]; }
        }
      } else {
        var i :| 0 <= i < |init| && !IsJsWhiteSpace(init[i]);
        assert s[i] == init[i];
      }
    } else if s != [] {
      assert !IsJsWhiteSpace(s[|s| - 1]);
    }
  }

  /** `trim()` yields the empty (falsy) string exactly for all-white-space input. */
  lemma JsTrimEmptyIff(s: string)
    ensures JsTrim(s) == [] <==> AllJsWhiteSpace(s)
  {
    TrimStartEmpty(s);
    var t := TrimStart(s);
    TrimEndEmpty(t);
    if t != [] {
      assert !IsJsWhiteSpace(t[0]);
    }
  }

  // ---------------------------------------------------------------------
  // Ordinal order on strings

  /** Lexicographic order on code points, the shortest prefix first. */
  predicate LessEq(a: string, b: string)
    decreases |a|
  {
    a == [] || (b != [] && (a[0] < b[0] || (a[0] == b[0] && LessEq(a[1..], b[1..]))))
  }

  lemma {:induction false} LessEqReflexive(a: string)
    ensures LessEq(a, a)
    decreases |a|
  {
    if a != [] {
      LessEqReflexive(a[1..]);
    }
  }

  lemma {:induction false} LessEqTotal(a: string, b: string)
    ensures LessEq(a, b) || LessEq(b, a)
    decreases |a|
  {
    if a != [] && b != [] && a[0] == b[0] {
      LessEqTotal(a[1..], b[1..]);
    }
  }

  lemma {:induction false} LessEqTransitive(a: string, b: string, c: string)
    requires LessEq(a, b) && LessEq(b, c)
    ensures LessEq(a, c)
    decreases |a|
  {
    if a != [] && a[0] == b[0] && b[0] == c[0] {
      LessEqTransitive(a[1..], b[1..], c[1..]);
    }
  }

  // ---------------------------------------------------------------------
  // Numbers

  function DigitChar(d: nat): char
    requires d < 10
  {
    ('0' as int + d) as char
  }

  /** Decimal rendering of a natural number, as `'' + n` in TypeScript. */
  function DecimalString(n: nat): (r: string)
    ensures r != []
    decreases n
  {
    if n < 10 then [DigitChar(n)] else DecimalString(n / 10) + [DigitChar(n % 10)]
  }

  /** `s` is how `Number.prototype.toString` renders a natural number:
      one or more decimal digits, with no leading zero. */
  predicate IsNumeral(s: string) {
    && s != []
    && (forall i :: 0 <= i < |s| ==> '0' <= s[i] <= '9')
    && (|s| > 1 ==> s[0] != '0')
  }

  /** The value a string of decimal digits denotes. */
  function DecimalValue(s: string): int
    decreases |s|
  {
    if s == [] then 0 else DecimalValue(s[..|s| - 1]) * 10 + (s[|s| - 1] as int - '0' as int)
  }

  /** Reading the rendering back gives the number, and the rendering has
      only digits with no leading zero. */
  lemma {:induction false} DecimalRoundTrip(n: nat)
    ensures DecimalValue(DecimalString(n)) == n
    ensures IsNumeral(DecimalString(n))
    decreases n
  {
    var r := DecimalString(n);
    if n >= 10 {
      DecimalRoundTrip(n / 10);
      assert r[..|r| - 1] == DecimalString(n / 10);
    }
  }

  /** A number below 10^k renders in at most k digits. */
  lemma {:induction false} DecimalStringLength(n: nat)
    ensures n < 10 ==> |DecimalString(n)| == 1
    ensures n < 100 ==> |DecimalString(n)| <= 2
    ensures |DecimalString(n)| <= n + 1
    decreases n
  {
    if n >= 10 {
      DecimalStringLength(n / 10);
    }
  }
}

=== FILE: user_controller.dfy ===
/**
 * The user controller: the gate on each action and the mapping from the
 * service's outcome to the HTTP answer.
 */
module UserController {
  import opened Models
  import opened Authorization
  import opened Http
  import opened Wrappers
  import UserService

  datatype Action = Login | Register | GetUser | GetAllUsers

  /** Login and register are open; reading one user needs any identity;
      listing users needs the `Admin` role. */
  function Gate(a: Action): (p: Policy)
    ensures a.Login? || a.Register? <==> p == AllowAnonymous
    ensures a.GetUser? <==> p == RequireAuthenticated
    ensures a.GetAllUsers? <==> p == RequireRole("Admin")
  {
    match a
    case Login => AllowAnonymous
    case Register => AllowAnonymous
    case GetUser => RequireAuthenticated
    case GetAllUsers => RequireRole("Admin")
  }

  const InvalidCredentialsMessage := "Invalid email or password"

  /** `Login`: null is 401 with a fixed message, a result is 200, and any
      exception is 400. */
  function LoginAnswer(o: Outcome<Option<UserService.AuthResponse>>): (r: Response)
    ensures r.status == StatusOk <==> o.Returned? && o.value.Some?
    ensures r.status == StatusUnauthorized <==> o == Returned(None)
    ensures r.status == StatusBadRequest <==> o.Threw?
    ensures r.status == StatusOk ==> r.body == Auth(o.value.value)
    ensures r.status == StatusUnauthorized ==> r.body == Message(InvalidCredentialsMessage)
  {
    match o
    case Returned(None) => Response(StatusUnauthorized, Message(InvalidCredentialsMessage))
    case Returned(Some(a)) => Response(StatusOk, Auth(a))
    case Threw(e) => Response(StatusBadRequest, Message("Login failed: " + e.message))
  }

  /** `Register`: a result is 200, `InvalidOperationException` is 409 with
      its message, any other exception is 400. */
  function RegisterAnswer(o: Outcome<UserService.AuthResponse>): (r: Response)
    ensures r.status == StatusOk <==> o.Returned?
    ensures r.status == StatusConflict <==> o.Threw? && o.exn.InvalidOperation?
    ensures r.status == StatusBadRequest <==> o.Threw? && !o.exn.InvalidOperation?
    ensures r.status == StatusOk ==> r.body == Auth(o.value)
    ensures r.status == StatusConflict ==> r.body == Message(o.exn.message)
  {
    match o
    case Returned(a) => Response(StatusOk, Auth(a))
    case Threw(InvalidOperation(m)) => Response(StatusConflict, Message(m))
    case Threw(e) => Response(StatusBadRequest, Message("Registration failed: " + e.message))
  }

  /** `GetUser`: null is 404 with the framework's problem details, a result
      200, an exception 400. */
  function GetUserAnswer(o: Outcome<Option<UserService.UserResponse>>): (r: Response)
    ensures r.status == StatusOk <==> o.Returned? && o.value.Some?
    ensures r.status == StatusNotFound <==> o == Returned(None)
    ensures r.status == StatusBadRequest <==> o.Threw?
    ensures r.status == StatusOk ==> r.body == OneUser(o.value.value)
    ensures r.status == StatusNotFound ==> r.body == Problem(StatusNotFound)
  {
    match o
    case Returned(None) => StatusProblem(StatusNotFound)
    case Returned(Some(u)) => Response(StatusOk, OneUser(u))
    case Threw(e) => Response(StatusBadRequest, Message("Error retrieving user: " + e.message))
  }

  /** `GetAllUsers`: the list is 200, an exception 400. */
  function GetAllUsersAnswer(o: Outcome<seq<UserService.UserResponse>>): (r: Response)
    ensures r.status == StatusOk <==> o.Returned?
    ensures r.status == StatusBadRequest <==> o.Threw?
    ensures r.status == StatusOk ==> r.body == Users(o.value)
  {
    match o
    case Returned(us) => Response(StatusOk, Users(us))
    case Threw(e) => Response(StatusBadRequest, Message("Error retrieving users: " + e.message))
  }
}

=== FILE: user_repository.dfy ===
/**
 * The user table and the repository's lookups and insert. The table is a
 * sequence in insertion order; `Id` is its key, and e-mail lookups ignore
 * letter case.
 */
module UserRepository {
  import opened Wrappers
  import opened Models
  import opened Seqs
  import Text

  type Store = seq<User>

  function Key(u: User): int {
    u.id
  }

  /** The lookup condition: equal after lower-casing both sides. */
  predicate EmailMatches(u: User, email: string) {
    Text.Lower(u.email) == Text.Lower(email)
  }

  /** No two stored users share an e-mail address up to letter case. */
  predicate EmailsDistinct(s: Store) {
    forall i, j :: 0 <= i < |s| && 0 <= j < |s| && i != j ==> Text.Lower(s[i].email) != Text.Lower(s[j].email)
  }

  /** `s[i]` is the first user whose e-mail matches. */
  ghost predicate FirstEmailMatch(s: Store, email: string, i: int) {
    && 0 <= i < |s|
    && EmailMatches(s[i], email)
    && forall j :: 0 <= j < i ==> !EmailMatches(s[j], email)
  }

  /** `GetByEmailAsync`: the first user whose e-mail equals `email` up to
      letter case. */
  function GetByEmail(s: Store, email: string): (r: Option<User>)
    ensures r.None? <==> forall i :: 0 <= i < |s| ==> !EmailMatches(s[i], email)
    ensures r.Some? ==> exists i :: FirstEmailMatch(s, email, i) && s[i] == r.value
    decreases |s|
  {
    if s == [] then None
    else if EmailMatches(s[0], email) then Some(s[0])
    else
      var r := GetByEmail(s[1..], email);
      assert forall i :: 0 < i < |s| ==> s[i] == s[1..][i - 1];
      if r.Some? then
        assert exists i :: FirstEmailMatch(s, email, i) && s[i] == r.value by {
          var i :| FirstEmailMatch(s[1..], email, i) && s[1..][i] == r.value;
          assert FirstEmailMatch(s, email, i + 1);
        }
        r
      else r
  }

  /** Queries differing only in letter case find the same user. */
  lemma GetByEmailIgnoresCase(s: Store, a: string, b: string)
    requires Text.Lower(a) == Text.Lower(b)
    ensures GetByEmail(s, a) == GetByEmail(s, b)
  {
  }

  /** `GetByIdAsync`: the user with this key. */
  function GetById(s: Store, id: int): (r: Option<User>)
    ensures r.Some? <==> HasKey(s, Key, id)
    ensures r.Some? ==> r.value in s && r.value.id == id
    ensures r.Some? && UniqueKeys(s, Key) ==> forall i :: 0 <= i < |s| && s[i].id == id ==> s[i] == r.value
  {
    FindKeyUnique(s, Key, id);
    FindKey(s, Key, id)
  }

  /** `CreateAsync`: adds the user. A zero id is replaced by a generated
      key; an id already present makes the write fail. */
  function Create(s: Store, u: User): (r: Result<(Store, User), Exn>)
    ensures r.Err? <==> u.id != 0 && HasKey(s, Key, u.id)
    ensures r.Ok? ==> r.value.0 == s + [r.value.1]
    ensures r.Ok? ==> !HasKey(s, Key, r.value.1.id) && r.value.1.id != 0
    ensures r.Ok? ==> r.value.1 == u.(id := r.value.1.id)
    ensures r.Ok? && u.id != 0 ==> r.value.1 == u
    ensures r.Ok? && UniqueKeys(s, Key) ==> UniqueKeys(r.value.0, Key)
  {
    var v := if u.id == 0 then u.(id := NextKey(s, Key)) else u;
    if HasKey(s, Key, v.id) then Err(Failure("duplicate key"))
    else
      AppendFreshKey(s, Key, v);
      Ok((s + [v], v))
  }

  /** `GetAllAsync`: the whole table, unfiltered, in store order. */
  function GetAll(s: Store): (r: Store)
    ensures |r| == |s| && forall i :: 0 <= i < |s| ==> r[i] == s[i]
  {
    s
  }
}

=== FILE: user_service.dfy ===
/**
 * The user service: login, registration and the user read operations.
 * Password hashing, password verification and token generation are calls
 * into libraries; the model receives them as functions in a `Crypto` value.
 */
module UserService {
  import opened Wrappers
  import opened Models
  import opened Seqs
  import Text
  import Repo = UserRepository

  /** The foreign calls: `BCrypt.HashPassword`, `BCrypt.Verify` and the
      token service's `GenerateToken`. */
  datatype Crypto = Crypto(
    hash: string -> string,
    verify: (string, string) -> bool,
    generateToken: User -> string)

  datatype LoginRequest = LoginRequest(email: string, password: string)

  datatype RegisterRequest = RegisterRequest(email: string, password: string)

  datatype AuthResponse = AuthResponse(token: string, email: string, role: string)

  datatype UserResponse = UserResponse(id: int, email: string, role: string, createdAt: Instant)

  const DuplicateEmailMessage := "User with this email already exists"

  /** The answer to an authenticated user: a token for the stored user, the
      stored e-mail and the role's name. */
  function Authenticated(c: Crypto, u: User): AuthResponse {
    AuthResponse(c.generateToken(u), u.email, RoleName(u.role))
  }

  /** `LoginAsync`: null when no user matches the e-mail up to letter case
      or when the password does not verify against the first match's hash;
      the two failures are the same null. */
  function Login(s: Repo.Store, c: Crypto, req: LoginRequest): (r: Option<AuthResponse>)
    ensures r.Some? <==> exists i :: Repo.FirstEmailMatch(s, req.email, i) && c.verify(req.password, s[i].passwordHash)
    ensures r.Some? ==> exists i :: Repo.FirstEmailMatch(s, req.email, i) && r.value == Authenticated(c, s[i])
    ensures (forall i :: 0 <= i < |s| ==> !Repo.EmailMatches(s[i], req.email)) ==> r.None?
  {
    match Repo.GetByEmail(s, req.email)
    case None => None
    case Some(u) =>
      if !c.verify(req.password, u.passwordHash) then None
      else Some(Authenticated(c, u))
  }

  /** The user a registration creates: the given e-mail, the password's
      hash, and the default role. */
  function NewCustomer(c: Crypto, req: RegisterRequest, now: Instant): User {
    NewUser(now).(email := req.email, passwordHash := c.hash(req.password), role := Customer)
  }

  /** `RegisterAsync`: throws `InvalidOperationException` and writes nothing
      when the e-mail is taken up to letter case; otherwise appends exactly
      one user, always a customer, and answers for it. */
  function Register(s: Repo.Store, c: Crypto, req: RegisterRequest, now: Instant): (r: Step<Repo.Store, AuthResponse>)
    ensures r.outcome.Threw? <==> exists i :: 0 <= i < |s| && Repo.EmailMatches(s[i], req.email)
    ensures r.outcome.Threw? ==> r.store == s && r.outcome.exn == InvalidOperation(DuplicateEmailMessage)
    ensures r.outcome.Returned? ==>
      && |r.store| == |s| + 1 && r.store[..|s|] == s
      && var u := r.store[|s|];
      && u.email == req.email && u.passwordHash == c.hash(req.password)
      && u.role == Customer && u.createdAt == now
      && !HasKey(s, Repo.Key, u.id)
      && r.outcome.value == AuthResponse(c.generateToken(u), req.email, "Customer")
    ensures UniqueKeys(s, Repo.Key) ==> UniqueKeys(r.store, Repo.Key)
    ensures Repo.EmailsDistinct(s) ==> Repo.EmailsDistinct(r.store)
  {
    if Repo.GetByEmail(s, req.email).Some? then
      Step(s, Threw(InvalidOperation(DuplicateEmailMessage)))
    else
      match Repo.Create(s, NewCustomer(c, req, now))
      case Ok(created) =>
        var s' := created.0;
        assert s'[..|s|] == s;
        assert forall i :: 0 <= i < |s| ==> s'[i] == s[i];
        Step(s', Returned(Authenticated(c, created.1)))
      case Err(e) => Step(s, Threw(e))
  }

  /** The read shape of a user: no password hash. */
  function ToUserResponse(u: User): (r: UserResponse)
    ensures r.id == u.id && r.email == u.email && r.createdAt == u.createdAt
    ensures r.role == (if u.role == Models.Admin then "Admin" else "Customer")
  {
    UserResponse(u.id, u.email, RoleName(u.role), u.createdAt)
  }

  /** Two users read the same exactly when they differ at most in their
      password hash. */
  lemma UserResponseHidesOnlyHash(u: User, v: User)
    ensures ToUserResponse(u) == ToUserResponse(v) <==> u.(passwordHash := v.passwordHash) == v
  {
    RoleNameInjective(u.role, v.role);
  }

  /** `GetUserByIdAsync`. */
  function GetUserById(s: Repo.Store, id: int): (r: Option<UserResponse>)
    ensures r.Some? <==> HasKey(s, Repo.Key, id)
    ensures r.Some? ==> r.value.id == id && exists u :: u in s && ToUserResponse(u) == r.value
  {
    match Repo.GetById(s, id)
    case None => None
    case Some(u) => Some(ToUserResponse(u))
  }

  /** `GetAllUsersAsync`: every stored user, in store order. */
  function GetAllUsers(s: Repo.Store): (r: seq<UserResponse>)
    ensures |r| == |s|
    ensures forall i :: 0 <= i < |s| ==> r[i].id == s[i].id && r[i].email == s[i].email
    ensures forall i :: 0 <= i < |s| ==> r[i].role == RoleName(s[i].role) && r[i].createdAt == s[i].createdAt
  {
    var all := Repo.GetAll(s);
    seq(|all|, i requires 0 <= i < |all| => ToUserResponse(all[i]))
  }

  /** The listing and the single read agree: an id can be read exactly when
      the listing shows it, and then with the same response when ids are
      distinct. */
  lemma ListingAgreesWithRead(s: Repo.Store, id: int)
    ensures GetUserById(s, id).Some? <==> exists i :: 0 <= i < |s| && GetAllUsers(s)[i].id == id
    ensures UniqueKeys(s, Repo.Key) && GetUserById(s, id).Some? ==>
      GetUserById(s, id).value in GetAllUsers(s)
  {
    if exists i :: 0 <= i < |s| && GetAllUsers(s)[i].id == id {
      var i :| 0 <= i < |s| && GetAllUsers(s)[i].id == id;
      assert Repo.Key(s[i]) == id;
    }
    if HasKey(s, Repo.Key, id) {
      var i :| 0 <= i < |s| && Repo.Key(s[i]) == id;
      assert GetAllUsers(s)[i].id == id;
    }
    if UniqueKeys(s, Repo.Key) && HasKey(s, Repo.Key, id) {
      var i :| 0 <= i < |s| && s[i].id == id;
      UniqueKeyIndex(s, Repo.Key, id, i);
      assert GetAllUsers(s)[i] == ToUserResponse(s[i]);
    }
  }

  /** After a registration, any letter-case variant of the same e-mail is
      refused and changes nothing. */
  lemma RegisterThenDuplicate(s: Repo.Store, c: Crypto, req: RegisterRequest, now: Instant, again: RegisterRequest, later: Instant)
    requires Register(s, c, req, now).outcome.Returned?
    requires Text.Lower(again.email) == Text.Lower(req.email)
    ensures var s' := Register(s, c, req, now).store;
      Register(s', c, again, later) == Step(s', Threw(InvalidOperation(DuplicateEmailMessage)))
  {
    var s' := Register(s, c, req, now).store;
    assert Repo.EmailMatches(s'[|s|], again.email);
  }

  /** After a registration, logging in with the same password and any
      letter-case variant of the e-mail succeeds as a customer, provided the
      hash verifies its own password. */
  lemma RegisterThenLogin(s: Repo.Store, c: Crypto, req: RegisterRequest, now: Instant, email: string)
    requires c.verify(req.password, c.hash(req.password))
    requires Register(s, c, req, now).outcome.Returned?
    requires Text.Lower(email) == Text.Lower(req.email)
    ensures var r := Register(s, c, req, now);
      Login(r.store, c, LoginRequest(email, req.password)) == Some(r.outcome.value)
  {
    var r := Register(s, c, req, now);
    var s' := r.store;
    assert Repo.FirstEmailMatch(s', email, |s|) by {
      forall j | 0 <= j < |s| ensures !Repo.EmailMatches(s'[j], email) {
        assert s'[j] == s[j];
      }
    }
  }
}

=== FILE: wrappers.dfy ===
/** Small failure-carrying datatypes shared by every layer of the model. */
module Wrappers {

  /** A value that may be absent: C#'s `null` / TypeScript's `null`. */
  datatype Option<+T> = None | Some(value: T) {
    function GetOr(default: T): T {
      match this
      case Some(v) => v
      case None => default
    }
  }

  /** Either a value or an error, for calls that fail without throwing. */
  datatype Result<+T, +E> = Ok(value: T) | Err(error: E)
}
